=== FILE: README.md ===
# Weather rollups and the latest feature row, in Dafny

This project models the core of a small weather-prediction service for Sydney. The service fetches a
61-day daily history from the Open-Meteo ERA5 archive. It derives past-only features from seven base
variables: a one-day lag, plus a rolling mean and a rolling standard deviation over 3, 7, 14 and 30 days.
It keeps the newest row that has a value in every column. It then lines that row up with the columns a
fitted model expects, and turns the model's raw output into an answer: will it rain in a week, and how
much precipitation falls over the next three days.

The model has five modules:

- `Wrappers` (`wrappers.dfy`) defines `Option` and `Result`. In a table cell, `None` stands for NaN.
- `Tables` (`tables.dfy`) models a pandas DataFrame.
  - A `Table` holds a date per row, ordered column names, and one column per name.
  - It supports `df[name]`, `df[name] = values`, `dropna`, `tail(1)` and `df[cols]`.
  - The `Frame` class is a DataFrame updated in place by column assignment.
- `Rolling` (`rolling.dfy`) models the column operations.
  - `shift(1)`.
  - `rolling(w, min_periods=m)` with a NaN-skipping mean and sample variance.
  - The past-only window that `shift(1)` followed by `rolling` produces.
- `Features` (`features.dfy`) models `app/features.py`:
  - the catalogue;
  - the derived column names;
  - `add_weather_rollups`. It is written as the in-place method `AddWeatherRollups` and proved equal to the function `Rollups`.
- `Service` (`service.dfy`) models the non-network parts of `app/main.py`:
  - the feature-row builder;
  - the column alignment;
  - the probability threshold;
  - the precipitation clamp;
  - the date offsets.

Dates are day numbers. The fetched history is a parameter of `BuildLatestFeatureRow`. The model's outputs are
parameters of `WillRain` and `ClampPrecipitation`.

`app/features.py` derives, for each of seven variables, the columns `_lag1`, `_rmean_{w}` and `_rstd_{w}`, computed over windows that end the day before.

## Model

| member | source | states |
|---|---|---|
| Features.BaseWeatherColumns | app/features.py:7-20 | The catalogue is exactly the seven declared names, in declared order. They are distinct, and none ends in a digit, so no base name can be mistaken for a derived one. |
| Features.SuffixInjective | app/features.py:28-32 | Different features (the lag, or a mean or deviation for some window) get different name suffixes. |
| Features.SameName | app/features.py:28-32 | Two derived names `c1 + s1` and `c2 + s2` built from catalogue variables are equal only when both the variable and the suffix agree. |
| Features.IntToStringInjective | app/features.py:31-32 | The decimal rendering of a window size in a column name determines the window size. |
| Features.IntToString | app/features.py:31-32 | The text of a window in a column name ends in a digit, and starts with a minus sign exactly for a negative window. Together with `NatToStringCanonical` and `NatToStringValue`, the digits are the window's canonical decimal form, as Python's `str` writes it. |
| Features.NatToStringValue | app/features.py:31-32 | Reading the decimal digits written for `n` back as a number gives `n`. |
| Features.IntToStringValue | app/features.py:31-32 | Reading a window's text back as a signed decimal numeral gives the window. |
| Features.NatToStringCanonical | app/features.py:31-32 | The text written for `n` consists of decimal digits only, and it starts with `0` only when `n` is 0. Any other rendering with the same value would carry a leading zero, so this fixes the text. |
| Features.Suffix | app/features.py:28-32 | Every suffix (`_lag1`, `_rmean_{w}`, `_rstd_{w}`) ends in a digit and opens with `_l` or `_r`. |
| Features.LagName | app/features.py:28 | The lag column's name ends in a digit. |
| Features.MeanName | app/features.py:31 | A mean column's name ends in a digit. |
| Features.StdName | app/features.py:32 | A deviation column's name ends in a digit. |
| Features.DerivedNameParts | app/features.py:28-32 | Each derived name is the variable's name followed by `_lag1`, `_rmean_` plus the window's decimal text, or `_rstd_` plus the window's decimal text. |
| Features.DefaultWindowTexts | app/main.py:90 | The windows 3, 7, 14 and 30 are written `3`, `7`, `14` and `30`. |
| Features.DefaultWindowNames | app/features.py:28-32 | With the default windows, the derived names are spelled `{c}_lag1`, `{c}_rmean_3`, `{c}_rstd_3` and so on up to `{c}_rstd_30`. The model's expected columns are matched against these exact names. |
| Features.FirstBadWindow | app/features.py:29-31 | The window reported in the error is one of the requested windows, and it is below 2. |
| Features.Rollups | app/features.py:23-33 | The output keeps the input's dates. Its labels stay distinct. It fails exactly when some catalogue variable is present and some window is below 2, where `min_periods = max(2, w // 2)` exceeds the window and pandas raises. The error names such a window. |
| Features.AssignColumnRollups | app/features.py:28-32 | For one present variable, the frame is updated in place: the lag column, then each window's mean and deviation columns. The first window below 2 stops the loop and is reported. |
| Features.AddWeatherRollups | app/features.py:23-33 | The copy-then-assign loop over the catalogue and the windows computes `Rollups`, including its error. |
| Features.RollupsFeature | app/features.py:26-32 | For every present catalogue variable and every requested feature, the output has the column `c + suffix`. Its values are that feature computed from the input column. |
| Features.RollupsColumns | app/features.py:28-32 | `{c}_lag1` is `shift(1)` of `c`. `{c}_rmean_{w}` and `{c}_rstd_{w}` are the past-window mean and deviation. |
| Features.RollupsKeeps | app/features.py:25 | Every input column whose name does not end in a digit is kept with its values unchanged. The lemma requires that the name not end in a digit. |
| Features.RollupsNothingPresent | app/features.py:26-27 | A table with no catalogue variable comes back unchanged, whatever the windows. |
| Features.RollupsNewColumns | app/features.py:26-32 | Every column the output adds is named `c + suffix` for a present catalogue variable `c` and a requested feature. Non-catalogue columns get nothing. |
| Features.RollupsLayout | app/features.py:25-32 | Suppose the windows are distinct and valid, and no input column name ends in a digit. Then the output is the input's columns in place, followed by the derived columns. They come in catalogue order and, within a variable, as lag, then mean and deviation per window in the given order. |
| Features.ColumnNamesDistinct | app/features.py:28-32 | With distinct windows, the names derived for one variable are pairwise distinct. |
| Features.DerivedNamesDistinct | app/features.py:26-32 | With distinct windows, all derived names over the catalogue are pairwise distinct. |
| Features.RollupsNoLeakage | app/features.py:24-32 | Two inputs that agree on a variable before row `i` get the same derived values at row `i`. Row `i` and later rows never influence row `i`. |
| Features.FeatureAt | app/features.py:28-32 | Position 0 of a variable's assignments is its lag. Positions `2m+1` and `2m+2` are the mean and the deviation for window `m`. |
| Rolling.Shift1 | app/features.py:28 | Row `i` of `shift(1)` is row `i-1` of the input, and row 0 is missing. |
| Rolling.MinPeriods | app/features.py:30 | `minp` is the larger of 2 and `w // 2`: at least both, and equal to one of them. |
| Rolling.TrailingWindow | app/features.py:31 | The window `rolling(w)` aggregates at row `i` is the last `min(i+1, w)` rows up to and including row `i`, in order. |
| Rolling.RollingColumn | app/features.py:31-32 | `rolling(w, min_periods=minp)` has a value at row `i` exactly when its window holds at least `minp` readings. That value is their mean, or their sample variance. |
| Rolling.RollingMeanPast | app/features.py:31 | Row `i` of `{c}_rmean_{w}` has a value exactly when rows `max(0, i-w) .. i-1` hold at least `max(2, w // 2)` readings. That value is their mean. |
| Rolling.RollingStdPast | app/features.py:32 | Row `i` of `{c}_rstd_{w}` has a value exactly when rows `max(0, i-w) .. i-1` hold at least `max(2, w // 2)` readings. That value is their sample variance. |
| Rolling.ShiftedRollingIsPast | app/features.py:31 | At every row, the trailing window of the shifted column holds the same readings as the past-only window. |
| Rolling.MinPeriodsFitWindow | app/features.py:30 | `max(2, w // 2)` fits within the window exactly when the window is at least 2. |
| Rolling.PastOnly | app/features.py:30-32 | The rolling mean and deviation at row `i` are taken over the readings of rows `max(0, i-w) .. i-1`. They are present exactly when there are at least `max(2, w // 2)` such readings. |
| Rolling.ShiftedWindowIsPast | app/features.py:31 | The `w`-row window of the shifted column ending at row `i` holds the same readings as rows `i-w .. i-1` of the column. |
| Rolling.NoLeakage | app/features.py:24-32 | The lag, mean and deviation at row `i` depend only on rows before `i`. |
| Rolling.WarmUp | app/features.py:30-31 | A rolling value at row `i` is missing unless `i >= max(2, w // 2)`. Rows 0 and 1 are always missing, and the 30-day mean needs row 15 or later. On a gap-free column it is present exactly when `min(i, w) >= max(2, w // 2)`. |
| Rolling.StdShape | app/features.py:30-32 | The deviation is missing exactly when the mean is. When present it is non-negative. Over a constant window it is 0 and the mean is the constant. |
| Rolling.VarianceFacts | app/features.py:32 | The sample variance is non-negative. For equal values it is 0, and their mean is the common value. |
| Rolling.MeanBounds | app/features.py:31 | A mean lies between any lower and upper bound of the values it averages. |
| Rolling.Present | app/features.py:31-32 | A value is a reading of a window exactly when the window holds it. A window with no missing cell has as many readings as cells. |
| Rolling.PresentCounts | app/features.py:31-32 | A window has as many readings as non-missing cells. Each value is read exactly as often as the window holds it. |
| Rolling.PresentAppend | app/features.py:31-32 | Readings keep the window's order: the readings of two adjacent stretches are those of the first followed by those of the second. |
| Rolling.ExampleRow1 | app/features.py:28-31 | On the series 20, 22, 19, 25, 21 with `w = 3`, row 1 has lag 20 and no mean. |
| Rolling.ExampleRow2Mean | app/features.py:31 | On that series, the 3-day mean at row 2 is 21. |
| Rolling.ExampleRow2Variance | app/features.py:32 | On that series, the 3-day variance at row 2 is 2. |
| Rolling.ExampleRow3 | app/features.py:31 | On that series, the 3-day mean at row 3 is 61/3. |
| Tables.SetColumn | app/features.py:28-32 | `df[name] = v` keeps the dates. It keeps the labels when `name` exists and appends it otherwise, and it keeps labels distinct. |
| Tables.Col | app/features.py:28 | `df[name]` has one cell per row. |
| Tables.ColAt | app/features.py:28 | In a table with distinct labels, `df[name]` is the column stored under that label. |
| Tables.Frame.Copy | app/features.py:25 | `df.copy()` gives a frame whose value is the input table. |
| Tables.SetColumnCol | app/features.py:28-32 | After `df[name] = v`, reading `name` gives `v`, and every other column reads as before. |
| Tables.AssignAllFresh | app/features.py:28-32 | Assigning new, distinct names appends them, in order, after the existing columns. |
| Tables.AssignAllLookup | app/features.py:28-32 | A column assigned only one value reads back as that value. |
| Tables.AssignAllKeeps | app/features.py:25 | Columns not assigned keep their values. |
| Tables.Frame.Assign | app/features.py:28-32 | In-place `df[name] = v` on a frame object. |
| Tables.DropNa | app/main.py:91 | `dropna` keeps exactly the complete rows, in their original order. Every remaining row has a value in every column. Nothing remains exactly when no row was complete. |
| Tables.CompleteRows | app/main.py:91 | The kept rows are exactly the complete rows, in ascending order. |
| Tables.LastComplete | app/main.py:91-94 | The last complete row is complete, and every later row is incomplete. There is none exactly when no row is complete. |
| Tables.LatestComplete | app/main.py:91-94 | `dropna().tail(1)` is the last complete row, and it is empty exactly when no row is complete. |
| Tables.Tail1 | app/main.py:94 | `tail(1)` has one row, or none for an empty table. That row is the last one: its date and every cell. |
| Tables.Select | app/main.py:141 | `X[cols]` (also at line 169) has exactly the labels `cols`, in that order, each with its column's values. |
| Tables.Zeros | app/main.py:140 | The column assigned by `X[c] = 0.0` has one cell per row, each holding 0. |
| Service.HistoryWindow | app/main.py:82-84 | The history asked for spans 61 days and ends on the reference date. |
| Service.RainTargetDate | app/main.py:131 | The rain forecast is about the day exactly seven days after the history ends. |
| Service.PrecipitationWindow | app/main.py:158-159 | The precipitation forecast covers three days, starting the day after the history ends. |
| Service.ForecastAfterHistory | app/main.py:131-159 | Every day of the history fetched at lines 82-83 precedes both forecast periods. The rain day is 7 to 67 days after it. |
| Service.MissingFrom | app/main.py:86 | A name is reported missing exactly when it is in the list asked for and absent from the table. |
| Service.MissingFromOrder | app/main.py:86 | The missing names are distinct and in the order they were asked for. |
| Service.MissingBaseColumns | app/main.py:86-87 | The list is empty exactly when the history has every catalogue variable. |
| Service.MissingBaseColumnsOrder | app/main.py:86-88 | The reported names are distinct and in catalogue order. |
| Service.DefaultWindowsOk | app/main.py:90 | The windows 3, 7, 14 and 30 are distinct and all accepted, so the rollups never fail. |
| Service.FeatureTable | app/main.py:90 | The rollups over the windows 3, 7, 14 and 30 succeed, keep the dates and give distinct labels. |
| Service.BuildLatestFeatureRow | app/main.py:81-95 | Missing catalogue variables are reported, by name, before any rollup is computed. Otherwise a history with no complete rolled-up row is reported as insufficient. Otherwise the result is exactly the last complete row. |
| Service.LatestRowComplete | app/main.py:91-94 | The result is one row with every rolled-up column, and every cell has a value. |
| Service.LatestRowFeature | app/main.py:90-94 | Each derived cell of the row is that feature of the history at that row, and it has a value. |
| Service.LatestRowHistory | app/main.py:90-94 | The row answered from is at least the sixteenth: its 30-day mean needs 15 earlier readings. |
| Service.LatestRowNewest | app/main.py:77-94 | On a date-sorted history, the row is the newest complete one, and both forecast periods start after its date. |
| Service.AlignFeatures | app/main.py:136-141 | The block repeats at lines 164-169. With declared expected columns, the result has exactly those labels in that order. A column the row has keeps its values, and a column it lacks is all zeros. Without declared columns the row is unchanged. |
| Service.ZeroFillStep | app/main.py:138-140 | Adding a missing expected column as zeros keeps every original column's values and makes every added column read as zeros. |
| Service.WillRain | app/main.py:145 | A probability in [0, 1] means rain exactly when it is at least 0.5. Otherwise the model's class prediction decides. |
| Service.WillRainMonotone | app/main.py:145 | Within [0, 1], a higher probability never turns rain into no rain. |
| Service.ClampPrecipitation | app/main.py:172-174 | The amount is never negative and never below the prediction. A non-negative prediction is kept, and a negative one becomes zero. |
| Service.ClampFacts | app/main.py:173-174 | Clamping is idempotent and preserves order. |

## Left out

- The HTTP layer is not modelled: the FastAPI routes, the JSON payloads, and `root` and `health` (app/main.py:98-125, 149-152, 178-185). They are transport with no logic.
- `_fetch_daily_range` (app/main.py:59-78) is a network call. The fetched table is a parameter.
  - Its sort by date (line 77) appears as the `Sorted` hypothesis of `Service.LatestRowNewest`.
  - Its upstream errors (status 502) are not modelled.
- `_parse_date`, `_resolve_model_path` and `_load_model` (app/main.py:35-56) are not modelled. They are string parsing by a library, file-system lookups and deserialisation.
- `model.predict` and `predict_proba` (app/main.py:144, 172) are calls into scikit-learn. Their outputs are parameters.
  - Whether a model declares `feature_names_in_` is the `Option` argument of `AlignFeatures`.
  - The exception handler around the calls (status 500) is not modelled.
  - The outputs are taken to be finite numbers (`real`), never NaN. At line 145 a NaN probability fails the range test and falls to the class prediction, which is the fallback case of `WillRain`. At line 173 a NaN amount passes the clamp unchanged, and that case is not modelled.
- The two route handlers are not modelled as wholes. Each is a straight sequence of the modelled parts with the fetch and the model call in between.
- `round(pred_mm, 2)` (app/main.py:183), the `date` column's datetime type and the ISO formatting of dates are not modelled.
  - Dates are day numbers and values are exact reals.
  - Floating-point rounding in pandas' rolling sums is not modelled.
- Rolling.RollingStdPast: holds the sample variance (ddof 1) rather than its square root. It has the same missing pattern, is also non-negative and is also zero on constant windows. The square root of the variance is not modelled.
- Features.RollupsLayout, Features.RollupsKeeps: assume that no input column name ends in a digit. The source keeps such a column (say `x_1`), but these two lemmas do not cover it. The derived names all end in a digit, and the assumption keeps them apart from the input names.
- The `date` column is held as the row labels (`dates`), outside the column names. `Tables.Select` and `Service.AlignFeatures` therefore keep the dates, whereas `X[cols]` (app/main.py:141) drops the `date` column. The selected columns and their values are the same.
- Features.BaseWeatherColumns: returns the catalogue as a value. That every call hands out a new list, so a caller's edits cannot reach the tuple, is a fact about Python aliasing with no counterpart in values.
- Features.Rollups: the error value names the first window below 2. pandas words its error differently for negative windows, and the message text is not modelled.
- Features.Rollups: the partial copy that pandas discards when it raises is not modelled. The loop may already have added a lag column to that copy.
- The pandas row index (`reset_index`) is not modelled. Rows are addressed by position, which is what `reset_index(drop=True)` restores.
- test_api.py is not modelled. It sends HTTP requests to a deployed server and asserts nothing about the computation.

=== FILE: features.dfy ===
/**
 * The rolling-feature engine: the fixed catalogue of base weather variables
 * and `add_weather_rollups`, which appends to a date-sorted daily table, for
 * every catalogue variable it holds, the previous day's value and, for every
 * window length, a past-only rolling mean and standard deviation.
 */
module Features {
  import opened Wrappers
  import opened Tables
  import opened Rolling

  /** The base variables, in the order their features are derived. */
  const BaseWeatherFeatures: seq<string> := [
    "precipitation_sum",
    "rain_sum",
    "precipitation_hours",
    "temperature_2m_max",
    "temperature_2m_min",
    "wind_speed_10m_max",
    "shortwave_radiation_sum"
  ]

  /** The default window lengths of `add_weather_rollups`, which the service also passes explicitly. */
  const DefaultWindows: seq<int> := [3, 7, 14, 30]

  predicate IsDigit(ch: char) { '0' <= ch <= '9' }

  /** Every derived column name ends in a digit; no catalogue name does. */
  predicate EndsInDigit(s: string) { |s| > 0 && IsDigit(s[|s| - 1]) }

  /**
   * The catalogue as a new list: the seven base variable names, distinct and
   * in declared order.
   */
  function BaseWeatherColumns(): (r: seq<string>)
    ensures r == BaseWeatherFeatures
    ensures |r| == 7 && NoDup(r)
    ensures forall k :: 0 <= k < |r| ==> !EndsInDigit(r[k])
  {
    BaseWeatherFeatures
  }

  function DigitChar(d: int): (ch: char)
    requires 0 <= d < 10
    ensures IsDigit(ch)
  {
    ('0' as int + d) as char
  }

  /** Decimal digits of `n`, as Python's `str` writes them. */
  function NatToString(n: nat): (r: string)
    ensures EndsInDigit(r) && (n < 10 <==> |r| == 1) && IsDigit(r[0])
  {
    if n < 10 then [DigitChar(n)] else NatToString(n / 10) + [DigitChar(n % 10)]
  }

  /** The number a string of decimal digits denotes, most significant digit first. */
  function DigitsValue(s: string): int {
    if s == [] then 0
    else DigitsValue(s[..|s| - 1]) * 10 + (s[|s| - 1] as int - '0' as int)
  }

  /** Reading back the digits of `n` gives `n`. */
  lemma {:induction false} NatToStringValue(n: nat)
    ensures DigitsValue(NatToString(n)) == n
  {
    var r := NatToString(n);
    if n < 10 {
      assert r[..0] == [];
    } else {
      NatToStringValue(n / 10);
      assert r[..|r| - 1] == NatToString(n / 10);
    }
  }

  /** `f"{w}"` for an integer. */
  function IntToString(w: int): (r: string)
    ensures EndsInDigit(r)
    ensures r[0] == '-' <==> w < 0
  {
    if w < 0 then "-" + NatToString(-w) else NatToString(w)
  }

  /**
   * The digits of `n` are its canonical decimal form: only digits, and no
   * leading zero unless `n` is 0. With `NatToStringValue`, that makes the text
   * exactly what Python's `str` writes.
   */
  lemma {:induction false} NatToStringCanonical(n: nat)
    ensures forall k :: 0 <= k < |NatToString(n)| ==> IsDigit(NatToString(n)[k])
    ensures NatToString(n)[0] == '0' ==> n == 0
  {
    if n >= 10 {
      NatToStringCanonical(n / 10);
      assert NatToString(n)[..|NatToString(n)| - 1] == NatToString(n / 10);
    }
  }

  /** The number a decimal numeral denotes, with an optional leading minus sign. */
  function NumeralValue(s: string): int {
    if |s| > 0 && s[0] == '-' then -DigitsValue(s[1..]) else DigitsValue(s)
  }

  /** Reading back the name's window text gives the window. */
  lemma IntToStringValue(w: int)
    ensures NumeralValue(IntToString(w)) == w
  {
    if w < 0 {
      NatToStringValue(-w);
      assert IntToString(w)[1..] == NatToString(-w);
    } else {
      NatToStringValue(w);
    }
  }

  /** Distinct numbers are written differently. */
  lemma {:induction false} NatToStringInjective(a: nat, b: nat)
    requires NatToString(a) == NatToString(b)
    ensures a == b
    decreases a
  {
    var ra, rb := NatToString(a), NatToString(b);
    if a < 10 || b < 10 {
      assert |ra| == 1 && |rb| == 1 && ra[0] == rb[0];
    } else {
      assert ra[..|ra| - 1] == NatToString(a / 10);
      assert rb[..|rb| - 1] == NatToString(b / 10);
      NatToStringInjective(a / 10, b / 10);
      assert ra[|ra| - 1] == rb[|rb| - 1];
    }
  }

  lemma IntToStringInjective(a: int, b: int)
    requires IntToString(a) == IntToString(b)
    ensures a == b
  {
    var ra, rb := IntToString(a), IntToString(b);
    assert ra[0] == if a < 0 then '-' else NatToString(a)[0];
    assert rb[0] == if b < 0 then '-' else NatToString(b)[0];
    if a < 0 && b < 0 {
      assert ra[1..] == NatToString(-a) && rb[1..] == NatToString(-b);
      NatToStringInjective(-a, -b);
    } else if a >= 0 && b >= 0 {
      NatToStringInjective(a, b);
    } else {
      assert false;
    }
  }

  /** The three kinds of column derived from a variable. */
  datatype Feature = Lag | RollingMean(window: int) | RollingStd(window: int)

  /** The text appended to the variable's name. */
  function Suffix(f: Feature): (r: string)
    ensures EndsInDigit(r) && Marked(r)
  {
    match f
    case Lag => "_lag1"
    case RollingMean(w) => "_rmean_" + IntToString(w)
    case RollingStd(w) => "_rstd_" + IntToString(w)
  }

  /** Every suffix opens with `_l` or `_r`, which no catalogue name continues with. */
  predicate Marked(s: string) {
    |s| >= 2 && s[0] == '_' && (s[1] == 'l' || s[1] == 'r')
  }

  /** Distinct features have distinct suffixes. */
  lemma SuffixInjective(f: Feature, g: Feature)
    ensures Suffix(f) == Suffix(g) ==> f == g
  {
    var sf, sg := Suffix(f), Suffix(g);
    if sf == sg {
      assert sf[1] == sg[1] && sf[2] == sg[2];
      match f
      case Lag =>
      case RollingMean(w) =>
        assert sf[7..] == IntToString(w) && sg[7..] == IntToString(g.window);
        IntToStringInjective(w, g.window);
      case RollingStd(w) =>
        assert sf[6..] == IntToString(w) && sg[6..] == IntToString(g.window);
        IntToStringInjective(w, g.window);
    }
  }

  /**
   * Every derived name is the variable's own name followed by the feature's
   * suffix, which names the window in decimal.
   */
  lemma DerivedNameParts(c: string, w: int)
    ensures LagName(c)[..|c|] == c && LagName(c)[|c|..] == "_lag1"
    ensures MeanName(c, w)[..|c|] == c && MeanName(c, w)[|c|..] == "_rmean_" + IntToString(w)
    ensures StdName(c, w)[..|c|] == c && StdName(c, w)[|c|..] == "_rstd_" + IntToString(w)
  {
  }

  /** The names the service's windows produce, spelled out. */
  lemma DefaultWindowNames(c: string)
    ensures LagName(c) == c + "_lag1"
    ensures MeanName(c, 3) == c + "_rmean_3" && StdName(c, 3) == c + "_rstd_3"
    ensures MeanName(c, 7) == c + "_rmean_7" && StdName(c, 7) == c + "_rstd_7"
    ensures MeanName(c, 14) == c + "_rmean_14" && StdName(c, 14) == c + "_rstd_14"
    ensures MeanName(c, 30) == c + "_rmean_30" && StdName(c, 30) == c + "_rstd_30"
  {
    DefaultWindowTexts();
    assert Suffix(RollingMean(14)) == "_rmean_14" && Suffix(RollingStd(14)) == "_rstd_14";
    assert Suffix(RollingMean(30)) == "_rmean_30" && Suffix(RollingStd(30)) == "_rstd_30";
  }

  /** The decimal texts of the default windows. */
  lemma DefaultWindowTexts()
    ensures IntToString(3) == "3" && IntToString(7) == "7"
    ensures IntToString(14) == "14" && IntToString(30) == "30"
  {
    assert NatToString(14) == NatToString(1) + [DigitChar(4)];
    assert NatToString(30) == NatToString(3) + [DigitChar(0)];
  }

  function LagName(c: string): (r: string)
    ensures EndsInDigit(r)
  {
    c + Suffix(Lag)
  }

  function MeanName(c: string, w: int): (r: string)
    ensures EndsInDigit(r)
  {
    c + Suffix(RollingMean(w))
  }

  function StdName(c: string, w: int): (r: string)
    ensures EndsInDigit(r)
  {
    c + Suffix(RollingStd(w))
  }

  /**
   * Where a catalogue name is a proper prefix of another, the longer one does
   * not continue with `_l` or `_r`.
   */
  lemma BaseNamesSeparated(c1: string, c2: string)
    requires c1 in BaseWeatherFeatures && c2 in BaseWeatherFeatures && |c1| < |c2|
    ensures c2[|c1|] != '_' || (|c1| + 1 < |c2| && c2[|c1| + 1] != 'l' && c2[|c1| + 1] != 'r')
  {
  }

  /** When a shorter name is followed by a marked suffix, the longer one carries that mark. */
  lemma MarkAt(c1: string, s1: string, c2: string, s2: string)
    requires Marked(s1) && Marked(s2) && |c1| < |c2| && c1 + s1 == c2 + s2
    ensures c2[|c1|] == '_' && |c1| + 1 < |c2| && (c2[|c1| + 1] == 'l' || c2[|c1| + 1] == 'r')
  {
    var n := c1 + s1;
    assert n[|c1|] == s1[0] && n[|c1| + 1] == s1[1];
    assert n[|c1|] == c2[|c1|];
    assert n[|c2|] == s2[0];
    assert n[|c1| + 1] == c2[|c1| + 1];
  }

  /** A derived name tells its variable and its feature apart. */
  lemma SameName(c1: string, s1: string, c2: string, s2: string)
    requires c1 in BaseWeatherFeatures && c2 in BaseWeatherFeatures && Marked(s1) && Marked(s2)
    ensures c1 + s1 == c2 + s2 ==> c1 == c2 && s1 == s2
  {
    var n := c1 + s1;
    if n == c2 + s2 {
      if |c1| < |c2| {
        MarkAt(c1, s1, c2, s2);
        BaseNamesSeparated(c1, c2);
        assert false;
      } else if |c2| < |c1| {
        MarkAt(c2, s2, c1, s1);
        BaseNamesSeparated(c2, c1);
        assert false;
      } else {
        assert c1 == n[..|c1|] == c2;
        assert s1 == n[|c1|..] == s2;
      }
    }
  }

  /** pandas accepts `rolling(w, min_periods=MinPeriods(w))` only when the threshold fits the window. */
  predicate WindowOk(w: int) { MinPeriods(w) <= w }

  predicate AllWindowsOk(ws: seq<int>) {
    forall k :: 0 <= k < |ws| ==> WindowOk(ws[k])
  }

  /** The window on which pandas raises first. */
  function FirstBadWindow(ws: seq<int>): (w: int)
    requires !AllWindowsOk(ws)
    ensures w in ws && w < 2
  {
    if !WindowOk(ws[0]) then ws[0]
    else
      assert !AllWindowsOk(ws[1..]) by {
        var k :| 0 <= k < |ws| && !WindowOk(ws[k]);
        assert ws[1..][k - 1] == ws[k];
      }
      FirstBadWindow(ws[1..])
  }

  lemma {:induction false} FirstBadWindowAt(ws: seq<int>, j: int)
    requires 0 <= j < |ws| && !WindowOk(ws[j])
    requires forall k :: 0 <= k < j ==> WindowOk(ws[k])
    ensures !AllWindowsOk(ws) && FirstBadWindow(ws) == ws[j]
  {
    if j > 0 {
      assert WindowOk(ws[0]);
      assert ws[1..][j - 1] == ws[j];
      FirstBadWindowAt(ws[1..], j - 1);
    }
  }

  /** The mean and deviation columns of variable `c` for the windows `ws`, in window order. */
  function WindowAssignments(c: string, s: Column, ws: seq<int>): (ds: seq<Assignment>)
    requires AllWindowsOk(ws)
    ensures |ds| == 2 * |ws|
    ensures forall k :: 0 <= k < |ds| ==> |ds[k].1| == |s|
    ensures forall k :: 0 <= k < |ds| ==> EndsInDigit(ds[k].0)
  {
    if ws == [] then []
    else
      var w := ws[|ws| - 1];
      assert WindowOk(ws[|ws| - 1]);
      WindowAssignments(c, s, ws[..|ws| - 1])
        + [(MeanName(c, w), RollingMeanPast(s, w)), (StdName(c, w), RollingStdPast(s, w))]
  }

  /** Everything derived from one variable: its lag, then its window columns. */
  function ColumnAssignments(c: string, s: Column, ws: seq<int>): (ds: seq<Assignment>)
    requires AllWindowsOk(ws)
    ensures |ds| == 1 + 2 * |ws|
    ensures forall k :: 0 <= k < |ds| ==> |ds[k].1| == |s| && EndsInDigit(ds[k].0)
  {
    [(LagName(c), Shift1(s))] + WindowAssignments(c, s, ws)
  }

  predicate AnyPresent(t: Table, cs: seq<string>) {
    exists k :: 0 <= k < |cs| && cs[k] in t.names
  }

  /** The columns derived from the variables `cs` that `t` holds, variable by variable. */
  function DerivedAssignments(t: Table, cs: seq<string>, ws: seq<int>): (ds: seq<Assignment>)
    requires t.Valid() && (AllWindowsOk(ws) || !AnyPresent(t, cs))
    ensures Fits(t, ds)
    ensures forall k :: 0 <= k < |ds| ==> EndsInDigit(ds[k].0)
  {
    if cs == [] then []
    else
      var c := cs[|cs| - 1];
      var prefix := cs[..|cs| - 1];
      assert AnyPresent(t, prefix) ==> AnyPresent(t, cs) by {
        if AnyPresent(t, prefix) {
          var k :| 0 <= k < |prefix| && prefix[k] in t.names;
          assert cs[k] == prefix[k];
        }
      }
      assert c in t.names ==> AnyPresent(t, cs) by {
        assert cs[|cs| - 1] == c;
      }
      var rest := DerivedAssignments(t, prefix, ws);
      var more := if c in t.names then ColumnAssignments(c, Col(t, c), ws) else [];
      FitsAppend(t, rest, more);
      rest + more
  }

  /** pandas' `ValueError` for a window too short for its minimum-periods threshold. */
  datatype RollupError = InvalidWindow(window: int)

  /**
   * `add_weather_rollups(df, windows)`: the input columns, then the derived
   * columns assigned in order. It fails on the first window below 2, but only
   * when some catalogue variable is present (the window test sits inside the loop over present variables).
   */
  function Rollups(df: Table, ws: seq<int>): (r: Result<Table, RollupError>)
    requires df.Valid() && df.Unique()
    ensures r.Success? ==> r.value.Valid() && r.value.Unique() && r.value.dates == df.dates
    ensures r.Failure? <==> AnyPresent(df, BaseWeatherFeatures) && exists k :: 0 <= k < |ws| && ws[k] < 2
    ensures r.Failure? ==> r.error.window in ws && r.error.window < 2
  {
    if AnyPresent(df, BaseWeatherFeatures) && !AllWindowsOk(ws) then
      Failure(InvalidWindow(FirstBadWindow(ws)))
    else
      Success(AssignAll(df, DerivedAssignments(df, BaseWeatherFeatures, ws)))
  }

  /** One more variable: the derived columns grow by that variable's columns when the table holds it. */
  lemma DerivedStep(t: Table, cs: seq<string>, k: int, ws: seq<int>)
    requires t.Valid() && 0 <= k < |cs|
    requires AllWindowsOk(ws) || (!AnyPresent(t, cs[..k]) && cs[k] !in t.names)
    ensures AnyPresent(t, cs[..k + 1]) <==> AnyPresent(t, cs[..k]) || cs[k] in t.names
    ensures DerivedAssignments(t, cs[..k + 1], ws) ==
      DerivedAssignments(t, cs[..k], ws) + (if cs[k] in t.names then ColumnAssignments(cs[k], Col(t, cs[k]), ws) else [])
  {
    var next := cs[..k + 1];
    assert next[..k] == cs[..k] && next[k] == cs[k];
    if AnyPresent(t, next) {
      var m :| 0 <= m < |next| && next[m] in t.names;
      if m < k {
        assert cs[..k][m] in t.names;
      }
    }
  }

  /** One more window: two more assignments, the mean column and then the deviation column. */
  lemma WindowStep(c: string, s: Column, ws: seq<int>, j: int)
    requires 0 <= j < |ws| && forall m :: 0 <= m <= j ==> WindowOk(ws[m])
    ensures AllWindowsOk(ws[..j]) && AllWindowsOk(ws[..j + 1])
    ensures WindowAssignments(c, s, ws[..j + 1]) == WindowAssignments(c, s, ws[..j]) +
      [(MeanName(c, ws[j]), RollingMeanPast(s, ws[j])), (StdName(c, ws[j]), RollingStdPast(s, ws[j]))]
  {
    assert ws[..j + 1][..j] == ws[..j];
  }

  /** The same step, seen on the frame: the two columns are assigned one after the other. */
  lemma FrameWindowStep(before: Table, lag: Assignment, c: string, s: Column, ws: seq<int>, j: int)
    requires before.Valid() && |s| == before.NumRows() && |lag.1| == |s|
    requires 0 <= j < |ws| && forall m :: 0 <= m <= j ==> WindowOk(ws[m])
    ensures AllWindowsOk(ws[..j]) && AllWindowsOk(ws[..j + 1])
    ensures var w := ws[j];
      var xs := [lag] + WindowAssignments(c, s, ws[..j]);
      var ys := [lag] + WindowAssignments(c, s, ws[..j + 1]);
      Fits(before, xs) && Fits(before, ys) &&
      AssignAll(before, ys) ==
        SetColumn(SetColumn(AssignAll(before, xs), MeanName(c, w), RollingMeanPast(s, w)),
                  StdName(c, w), RollingStdPast(s, w))
  {
    WindowStep(c, s, ws, j);
    var w := ws[j];
    LagThenTwoMore(before, lag, WindowAssignments(c, s, ws[..j]), WindowAssignments(c, s, ws[..j + 1]),
                   (MeanName(c, w), RollingMeanPast(s, w)), (StdName(c, w), RollingStdPast(s, w)));
  }

  lemma LagThenTwoMore(t: Table, lag: Assignment, xs: seq<Assignment>, ys: seq<Assignment>, a: Assignment, b: Assignment)
    requires t.Valid() && |lag.1| == t.NumRows() && Fits(t, xs) && ys == xs + [a, b]
    requires |a.1| == t.NumRows() && |b.1| == t.NumRows()
    ensures Fits(t, [lag] + xs) && Fits(t, [lag] + ys)
    ensures AssignAll(t, [lag] + ys) == SetColumn(SetColumn(AssignAll(t, [lag] + xs), a.0, a.1), b.0, b.1)
  {
    FitsAppend(t, [lag], xs);
    assert [lag] + ys == ([lag] + xs) + [a, b];
    AssignAllTwoMore(t, [lag] + xs, a, b);
  }

  /**
   * The inner loop for one variable `c` that the frame holds: its lag column,
   * then its mean and deviation columns window by window, in place. Reports the
   * window pandas would raise on, if any.
   */
  method AssignColumnRollups(out: Frame, c: string, windows: seq<int>) returns (bad: Option<int>)
    requires out.Valid() && c in out.names
    modifies out
    ensures out.Valid() && out.dates == old(out.dates)
    ensures bad.None? ==> AllWindowsOk(windows)
    ensures bad.None? ==> out.Value() == AssignAll(old(out.Value()), ColumnAssignments(c, old(out.Get(c)), windows))
    ensures bad.Some? ==> !AllWindowsOk(windows) && bad.value == FirstBadWindow(windows)
  {
    ghost var before := out.Value();
    var s := out.Get(c);
    var lag := (LagName(c), Shift1(s));
    out.Assign(lag.0, lag.1);
    assert out.Value() == AssignAll(before, [lag]) by {
      assert [lag][..0] == [];
    }
    for j := 0 to |windows|
      invariant out.Valid() && out.dates == before.dates
      invariant forall m :: 0 <= m < j ==> WindowOk(windows[m])
      invariant AllWindowsOk(windows[..j])
      invariant out.Value() == AssignAll(before, [lag] + WindowAssignments(c, s, windows[..j]))
    {
      var w := windows[j];
      var minp := MinPeriods(w);
      if minp > w {
        FirstBadWindowAt(windows, j);
        return Some(w);
      }
      FrameWindowStep(before, lag, c, s, windows, j);
      out.Assign(MeanName(c, w), RollingMeanPast(s, w));
      out.Assign(StdName(c, w), RollingStdPast(s, w));
    }
    assert windows[..|windows|] == windows;
    return None;
  }

  /**
   * The rollup as written: copy the frame, then for each catalogue variable the
   * frame holds assign its derived columns in place.
   */
  method AddWeatherRollups(df: Table, windows: seq<int>) returns (r: Result<Table, RollupError>)
    requires df.Valid() && df.Unique()
    ensures r == Rollups(df, windows)
  {
    var out := new Frame.Copy(df);
    var base := BaseWeatherColumns();
    for k := 0 to |base|
      invariant out.Valid() && out.dates == df.dates
      invariant AnyPresent(df, base[..k]) ==> AllWindowsOk(windows)
      invariant out.Value() == AssignAll(df, DerivedAssignments(df, base[..k], windows))
    {
      var c := base[k];
      ghost var done := DerivedAssignments(df, base[..k], windows);
      assert c !in NamesOf(done) by {
        assert !EndsInDigit(c);
      }
      AssignAllNames(df, done, c);
      if c in df.names {
        AssignAllKeeps(df, done, c);
      }
      if c in out.names {
        var bad := AssignColumnRollups(out, c, windows);
        if bad.Some? {
          assert AnyPresent(df, BaseWeatherFeatures) by {
            assert BaseWeatherFeatures[k] in df.names;
          }
          return Failure(InvalidWindow(bad.value));
        }
        AssignAllAppend(df, done, ColumnAssignments(c, Col(df, c), windows));
      }
      DerivedStep(df, base, k, windows);
      assert c !in df.names ==> done + [] == done;
    }
    assert base[..|base|] == base;
    return Success(out.Value());
  }

  /** The features `add_weather_rollups` derives for the windows `ws`: the lag, and a mean and a deviation per window. */
  predicate Requested(f: Feature, ws: seq<int>) {
    match f
    case Lag => true
    case RollingMean(w) => w in ws
    case RollingStd(w) => w in ws
  }

  /** The values of feature `f` computed from the series `s`. */
  function FeatureValue(s: Column, f: Feature): Column
    requires f.Lag? || f.window >= 2
  {
    match f
    case Lag => Shift1(s)
    case RollingMean(w) => RollingMeanPast(s, w)
    case RollingStd(w) => RollingStdPast(s, w)
  }

  /** The assignment of feature `f` of variable `c`. */
  function Entry(c: string, s: Column, f: Feature): Assignment
    requires f.Lag? || f.window >= 2
  {
    (c + Suffix(f), FeatureValue(s, f))
  }

  /** The entries spelled with the column names the source writes. */
  lemma EntryNames(c: string, s: Column, w: int)
    requires w >= 2
    ensures Entry(c, s, Lag) == (LagName(c), Shift1(s))
    ensures Entry(c, s, RollingMean(w)) == (MeanName(c, w), RollingMeanPast(s, w))
    ensures Entry(c, s, RollingStd(w)) == (StdName(c, w), RollingStdPast(s, w))
  {
  }

  /** A requested feature has a window pandas accepts. */
  lemma RequestedOk(f: Feature, ws: seq<int>)
    requires AllWindowsOk(ws) && Requested(f, ws)
    ensures f.Lag? || f.window >= 2
  {
    if !f.Lag? {
      var k :| 0 <= k < |ws| && ws[k] == f.window;
      assert WindowOk(ws[k]);
    }
  }

  /** The assignments for `c` come window by window, the mean before the deviation. */
  lemma {:induction false} WindowLayout(c: string, s: Column, ws: seq<int>)
    requires AllWindowsOk(ws)
    ensures var ds := WindowAssignments(c, s, ws);
      forall m :: 0 <= m < |ws| ==>
        && ws[m] >= 2
        && ds[2 * m] == (MeanName(c, ws[m]), RollingMeanPast(s, ws[m]))
        && ds[2 * m + 1] == (StdName(c, ws[m]), RollingStdPast(s, ws[m]))
  {
    if ws != [] {
      var ws' := ws[..|ws| - 1];
      var w := ws[|ws| - 1];
      assert AllWindowsOk(ws') && WindowOk(w);
      WindowLayout(c, s, ws');
      var prev := WindowAssignments(c, s, ws');
      var ds := WindowAssignments(c, s, ws);
      assert ds == prev + [(MeanName(c, w), RollingMeanPast(s, w)), (StdName(c, w), RollingStdPast(s, w))];
      forall m | 0 <= m < |ws|
        ensures ws[m] >= 2
        ensures ds[2 * m] == (MeanName(c, ws[m]), RollingMeanPast(s, ws[m]))
        ensures ds[2 * m + 1] == (StdName(c, ws[m]), RollingStdPast(s, ws[m]))
      {
        assert WindowOk(ws[m]);
        if m < |ws'| {
          var v := ws'[m];
          assert v == ws[m];
          assert prev[2 * m] == (MeanName(c, v), RollingMeanPast(s, v));
          assert prev[2 * m + 1] == (StdName(c, v), RollingStdPast(s, v));
          assert ds[2 * m] == prev[2 * m] && ds[2 * m + 1] == prev[2 * m + 1];
        } else {
          assert m == |ws'|;
          assert 2 * m == |prev|;
          assert ws[m] == w;
        }
      }
    }
  }

  /** Window `m` contributes the assignments at positions `2m + 1` (mean) and `2m + 2` (deviation). */
  lemma LayoutAt(c: string, s: Column, ws: seq<int>, m: int)
    requires AllWindowsOk(ws) && 0 <= m < |ws|
    ensures ws[m] >= 2
    ensures ColumnAssignments(c, s, ws)[2 * m + 1] == Entry(c, s, RollingMean(ws[m]))
    ensures ColumnAssignments(c, s, ws)[2 * m + 2] == Entry(c, s, RollingStd(ws[m]))
  {
    var wa := WindowAssignments(c, s, ws);
    var ca := ColumnAssignments(c, s, ws);
    var i := 2 * m;
    assert ca == [(LagName(c), Shift1(s))] + wa;
    assert ca[i + 1] == wa[i] && ca[i + 2] == wa[i + 1];
    WindowLayout(c, s, ws);
    assert wa[i] == (MeanName(c, ws[m]), RollingMeanPast(s, ws[m]));
    assert wa[i + 1] == (StdName(c, ws[m]), RollingStdPast(s, ws[m]));
    EntryNames(c, s, ws[m]);
  }

  /** The window whose mean or deviation sits at position `k > 0` of a variable's assignments. */
  lemma WindowIndex(k: int) returns (m: int)
    requires k > 0
    ensures 0 <= m && (k == 2 * m + 1 || k == 2 * m + 2)
  {
    m := (k - 1) / 2;
  }

  /** Position 0 of the assignments for `c` is its lag. */
  lemma LagAt(c: string, s: Column, ws: seq<int>)
    requires AllWindowsOk(ws)
    ensures ColumnAssignments(c, s, ws)[0] == Entry(c, s, Lag)
  {
    EntryNames(c, s, 2);
  }

  /** The feature that position `k` of the assignments for `c` holds. */
  lemma FeatureAt(c: string, s: Column, ws: seq<int>, k: int) returns (g: Feature, m: int)
    requires AllWindowsOk(ws) && 0 <= k < 1 + 2 * |ws|
    ensures Requested(g, ws) && (g.Lag? || g.window >= 2) && ColumnAssignments(c, s, ws)[k] == Entry(c, s, g)
    ensures g.Lag? <==> k == 0
    ensures k > 0 ==> 0 <= m < |ws| && g.window == ws[m] && k == if g.RollingMean? then 2 * m + 1 else 2 * m + 2
  {
    if k == 0 {
      LagAt(c, s, ws);
      g, m := Lag, 0;
    } else {
      m := WindowIndex(k);
      assert 0 <= m < |ws| && ws[m] in ws;
      if k == 2 * m + 1 {
        g := RollingMean(ws[m]);
      } else {
        g := RollingStd(ws[m]);
      }
      LayoutAt(c, s, ws, m);
    }
  }

  /** With distinct windows, the columns derived from one variable have distinct names. */
  lemma ColumnNamesDistinct(c: string, s: Column, ws: seq<int>)
    requires AllWindowsOk(ws) && NoDup(ws)
    ensures NoDup(NamesOf(ColumnAssignments(c, s, ws)))
  {
    var ds := ColumnAssignments(c, s, ws);
    forall k1, k2 | 0 <= k1 < k2 < |ds| ensures NamesOf(ds)[k1] != NamesOf(ds)[k2] {
      var g1, m1 := FeatureAt(c, s, ws, k1);
      var g2, m2 := FeatureAt(c, s, ws, k2);
      assert g1 != g2;
      SuffixInjective(g1, g2);
      assert (c + Suffix(g1))[|c|..] == Suffix(g1) && (c + Suffix(g2))[|c|..] == Suffix(g2);
    }
  }

  /**
   * Among the assignments derived from catalogue variable `c2`, any that
   * writes the column of feature `f` of catalogue variable `c` is that
   * feature, computed from `c` itself.
   */
  lemma ColumnValueByName(c2: string, s: Column, ws: seq<int>, c: string, f: Feature)
    requires AllWindowsOk(ws) && c2 in BaseWeatherFeatures && c in BaseWeatherFeatures
    requires f.Lag? || f.window >= 2
    ensures var ds := ColumnAssignments(c2, s, ws);
      forall k :: 0 <= k < |ds| && ds[k].0 == c + Suffix(f) ==> c2 == c && ds[k].1 == FeatureValue(s, f)
  {
    var ds := ColumnAssignments(c2, s, ws);
    forall k | 0 <= k < |ds| && ds[k].0 == c + Suffix(f) ensures c2 == c && ds[k].1 == FeatureValue(s, f) {
      var g, _ := FeatureAt(c2, s, ws, k);
      SameName(c2, Suffix(g), c, Suffix(f));
      SuffixInjective(g, f);
    }
  }

  /** Every requested feature of `c` is assigned. */
  lemma ColumnIncludes(c: string, s: Column, ws: seq<int>, f: Feature)
    requires AllWindowsOk(ws) && Requested(f, ws) && (f.Lag? || f.window >= 2)
    ensures Entry(c, s, f) in ColumnAssignments(c, s, ws)
  {
    var ds := ColumnAssignments(c, s, ws);
    if f.Lag? {
      EntryNames(c, s, 2);
      assert ds[0] == Entry(c, s, f);
    } else {
      var m :| 0 <= m < |ws| && ws[m] == f.window;
      LayoutAt(c, s, ws, m);
      assert ds[2 * m + 1] == Entry(c, s, RollingMean(ws[m])) && ds[2 * m + 2] == Entry(c, s, RollingStd(ws[m]));
    }
  }

  /** Every derived assignment that writes the column of feature `f` of `c` holds that feature of `c`'s input values. */
  lemma {:induction false} DerivedValueByName(t: Table, cs: seq<string>, ws: seq<int>, c: string, f: Feature)
    requires t.Valid() && AllWindowsOk(ws) && c in t.names && c in BaseWeatherFeatures
    requires forall j :: 0 <= j < |cs| ==> cs[j] in BaseWeatherFeatures
    requires f.Lag? || f.window >= 2
    ensures AssignsOnly(DerivedAssignments(t, cs, ws), c + Suffix(f), FeatureValue(Col(t, c), f))
  {
    if cs != [] {
      var prefix := cs[..|cs| - 1];
      var c2 := cs[|cs| - 1];
      DerivedValueByName(t, prefix, ws, c, f);
      var rest := DerivedAssignments(t, prefix, ws);
      var more := if c2 in t.names then ColumnAssignments(c2, Col(t, c2), ws) else [];
      if c2 in t.names {
        ColumnValueByName(c2, Col(t, c2), ws, c, f);
      }
      assert AssignsOnly(more, c + Suffix(f), FeatureValue(Col(t, c), f));
      AssignsOnlyAppend(rest, more, c + Suffix(f), FeatureValue(Col(t, c), f));
      assert DerivedAssignments(t, cs, ws) == rest + more;
    }
  }

  /** Every requested feature of every variable of `cs` that `t` holds is among the derived assignments. */
  lemma {:induction false} DerivedIncludes(t: Table, cs: seq<string>, ws: seq<int>, j: int, f: Feature)
    requires t.Valid() && AllWindowsOk(ws) && 0 <= j < |cs| && cs[j] in t.names
    requires Requested(f, ws) && (f.Lag? || f.window >= 2)
    ensures Entry(cs[j], Col(t, cs[j]), f) in DerivedAssignments(t, cs, ws)
  {
    var prefix := cs[..|cs| - 1];
    if j == |cs| - 1 {
      ColumnIncludes(cs[j], Col(t, cs[j]), ws, f);
    } else {
      assert prefix[j] == cs[j];
      DerivedIncludes(t, prefix, ws, j, f);
    }
  }

  /**
   * After `add_weather_rollups`, the column of feature `f` of a catalogue
   * variable `c` that the input holds is that feature computed from `c`'s
   * input values: the previous day's value, or the past-only rolling mean or
   * variance over one of the requested windows.
   */
  lemma RollupsFeature(df: Table, ws: seq<int>, c: string, f: Feature)
    requires df.Valid() && df.Unique() && AllWindowsOk(ws)
    requires c in BaseWeatherFeatures && c in df.names && Requested(f, ws)
    ensures Rollups(df, ws).Success?
    ensures (f.Lag? || f.window >= 2) &&
      var r := Rollups(df, ws).value;
      c + Suffix(f) in r.names && Col(r, c + Suffix(f)) == FeatureValue(Col(df, c), f)
  {
    RequestedOk(f, ws);
    var base := BaseWeatherFeatures;
    var ds := DerivedAssignments(df, base, ws);
    var name := c + Suffix(f);
    var v := FeatureValue(Col(df, c), f);
    var j :| 0 <= j < |base| && base[j] == c;
    DerivedIncludes(df, base, ws, j, f);
    DerivedValueByName(df, base, ws, c, f);
    var k0 :| 0 <= k0 < |ds| && ds[k0] == Entry(c, Col(df, c), f);
    assert name == NamesOf(ds)[k0];
    AssignAllLookup(df, ds, name, v);
  }

  /** The three feature columns of `c` for one window, spelled with their names. */
  lemma RollupsColumns(df: Table, ws: seq<int>, c: string, w: int)
    requires df.Valid() && df.Unique() && AllWindowsOk(ws)
    requires c in BaseWeatherFeatures && c in df.names && w in ws
    ensures Rollups(df, ws).Success? && w >= 2
    ensures var r := Rollups(df, ws).value;
      && LagName(c) in r.names && Col(r, LagName(c)) == Shift1(Col(df, c))
      && MeanName(c, w) in r.names && Col(r, MeanName(c, w)) == RollingMeanPast(Col(df, c), w)
      && StdName(c, w) in r.names && Col(r, StdName(c, w)) == RollingStdPast(Col(df, c), w)
  {
    RollupsFeature(df, ws, c, Lag);
    RollupsFeature(df, ws, c, RollingMean(w));
    RollupsFeature(df, ws, c, RollingStd(w));
  }

  /** The input columns that are not derived names (every catalogue column among them) are carried over unchanged. */
  lemma RollupsKeeps(df: Table, ws: seq<int>, n: string)
    requires df.Valid() && df.Unique() && Rollups(df, ws).Success?
    requires n in df.names && !EndsInDigit(n)
    ensures n in Rollups(df, ws).value.names && Col(Rollups(df, ws).value, n) == Col(df, n)
  {
    var ds := DerivedAssignments(df, BaseWeatherFeatures, ws);
    assert forall k :: 0 <= k < |ds| ==> NamesOf(ds)[k] != n by {
      forall k | 0 <= k < |ds| ensures NamesOf(ds)[k] != n {
        assert EndsInDigit(NamesOf(ds)[k]);
      }
    }
    AssignAllKeeps(df, ds, n);
  }

  lemma {:induction false} DerivedNone(t: Table, cs: seq<string>, ws: seq<int>)
    requires t.Valid() && !AnyPresent(t, cs)
    ensures DerivedAssignments(t, cs, ws) == []
  {
    if cs != [] {
      var prefix := cs[..|cs| - 1];
      assert forall k :: 0 <= k < |prefix| ==> prefix[k] == cs[k];
      assert cs[|cs| - 1] !in t.names;
      DerivedNone(t, prefix, ws);
    }
  }

  /** A table holding no catalogue variable comes back as it was, whatever the windows. */
  lemma RollupsNothingPresent(df: Table, ws: seq<int>)
    requires df.Valid() && df.Unique() && !AnyPresent(df, BaseWeatherFeatures)
    ensures Rollups(df, ws) == Success(df)
  {
    DerivedNone(df, BaseWeatherFeatures, ws);
  }

  /** The names derived from `cs` are those derived from all but its last variable, then the last one's. */
  lemma DerivedSplit(t: Table, cs: seq<string>, ws: seq<int>)
    requires t.Valid() && (AllWindowsOk(ws) || !AnyPresent(t, cs)) && cs != []
    ensures AllWindowsOk(ws) || !AnyPresent(t, cs[..|cs| - 1])
    ensures cs[|cs| - 1] in t.names ==> AllWindowsOk(ws)
    ensures var c := cs[|cs| - 1];
      NamesOf(DerivedAssignments(t, cs, ws)) == NamesOf(DerivedAssignments(t, cs[..|cs| - 1], ws)) +
        (if c in t.names then NamesOf(ColumnAssignments(c, Col(t, c), ws)) else [])
  {
    var prefix := cs[..|cs| - 1];
    var c := cs[|cs| - 1];
    assert AnyPresent(t, prefix) ==> AnyPresent(t, cs) by {
      if AnyPresent(t, prefix) {
        var k :| 0 <= k < |prefix| && prefix[k] in t.names;
        assert cs[k] == prefix[k];
      }
    }
    assert c in t.names ==> AnyPresent(t, cs);
    var rest := DerivedAssignments(t, prefix, ws);
    var more := if c in t.names then ColumnAssignments(c, Col(t, c), ws) else [];
    assert DerivedAssignments(t, cs, ws) == rest + more;
    NamesOfAppend(rest, more);
  }

  /** The variable and feature that a derived column name was made from. */
  lemma {:induction false} DerivedOwner(t: Table, cs: seq<string>, ws: seq<int>, n: string) returns (j: int, g: Feature)
    requires t.Valid() && (AllWindowsOk(ws) || !AnyPresent(t, cs))
    requires n in NamesOf(DerivedAssignments(t, cs, ws))
    ensures 0 <= j < |cs| && cs[j] in t.names && Requested(g, ws) && n == cs[j] + Suffix(g)
  {
    var prefix := cs[..|cs| - 1];
    var c := cs[|cs| - 1];
    DerivedSplit(t, cs, ws);
    if n in NamesOf(DerivedAssignments(t, prefix, ws)) {
      j, g := DerivedOwner(t, prefix, ws, n);
      assert prefix[j] == cs[j];
    } else {
      assert c in t.names;
      var b := NamesOf(ColumnAssignments(c, Col(t, c), ws));
      var k :| 0 <= k < |b| && b[k] == n;
      var m;
      g, m := FeatureAt(c, Col(t, c), ws, k);
      j := |cs| - 1;
    }
  }

  /**
   * `add_weather_rollups` adds no other column: every output column that was
   * not an input column is a requested feature of a catalogue variable the
   * input holds.
   */
  lemma RollupsNewColumns(df: Table, ws: seq<int>, n: string)
    requires df.Valid() && df.Unique() && Rollups(df, ws).Success?
    requires n in Rollups(df, ws).value.names && n !in df.names
    ensures exists c, g :: c in BaseWeatherFeatures && c in df.names && Requested(g, ws) && n == c + Suffix(g)
  {
    var ds := DerivedAssignments(df, BaseWeatherFeatures, ws);
    AssignAllNames(df, ds, n);
    var j, g := DerivedOwner(df, BaseWeatherFeatures, ws, n);
    assert BaseWeatherFeatures[j] in BaseWeatherFeatures;
  }

  /**
   * No leakage, on the whole table: two inputs whose column `c` agrees on
   * the rows before `i` get the same feature values at row `i`, whatever
   * row `i` and the later rows hold.
   */
  lemma RollupsNoLeakage(df1: Table, df2: Table, ws: seq<int>, c: string, f: Feature, i: int)
    requires df1.Valid() && df1.Unique() && df2.Valid() && df2.Unique() && AllWindowsOk(ws)
    requires c in BaseWeatherFeatures && c in df1.names && c in df2.names && Requested(f, ws)
    requires 0 <= i < df1.NumRows() && i < df2.NumRows() && Col(df1, c)[..i] == Col(df2, c)[..i]
    ensures Rollups(df1, ws).Success? && Rollups(df2, ws).Success?
    ensures var r1, r2 := Rollups(df1, ws).value, Rollups(df2, ws).value;
      && c + Suffix(f) in r1.names && c + Suffix(f) in r2.names
      && Col(r1, c + Suffix(f))[i] == Col(r2, c + Suffix(f))[i]
  {
    RollupsFeature(df1, ws, c, f);
    RollupsFeature(df2, ws, c, f);
    var w := if f.Lag? then 2 else f.window;
    NoLeakage(Col(df1, c), Col(df2, c), w, i);
  }

  /**
   * Appending the names derived for `c` to those derived for earlier,
   * different variables keeps all names distinct.
   */
  lemma DerivedStepDistinct(t: Table, prefix: seq<string>, c: string, ws: seq<int>)
    requires t.Valid() && AllWindowsOk(ws) && NoDup(ws) && c in t.names && c in BaseWeatherFeatures && c !in prefix
    requires forall j :: 0 <= j < |prefix| ==> prefix[j] in BaseWeatherFeatures
    requires NoDup(NamesOf(DerivedAssignments(t, prefix, ws)))
    ensures NoDup(NamesOf(DerivedAssignments(t, prefix, ws)) + NamesOf(ColumnAssignments(c, Col(t, c), ws)))
  {
    var a := NamesOf(DerivedAssignments(t, prefix, ws));
    var b := NamesOf(ColumnAssignments(c, Col(t, c), ws));
    ColumnNamesDistinct(c, Col(t, c), ws);
    forall x, y | 0 <= x < |a| && 0 <= y < |b| ensures a[x] != b[y] {
      var j, g := DerivedOwner(t, prefix, ws, a[x]);
      var h, m := FeatureAt(c, Col(t, c), ws, y);
      SameName(prefix[j], Suffix(g), c, Suffix(h));
    }
    NoDupAppend(a, b);
  }

  /**
   * With distinct windows, all derived names are distinct: columns of
   * different variables differ by their variable, those of one variable by
   * their feature.
   */
  lemma {:induction false} DerivedNamesDistinct(t: Table, cs: seq<string>, ws: seq<int>)
    requires t.Valid() && AllWindowsOk(ws) && NoDup(ws) && NoDup(cs)
    requires forall j :: 0 <= j < |cs| ==> cs[j] in BaseWeatherFeatures
    ensures NoDup(NamesOf(DerivedAssignments(t, cs, ws)))
  {
    if cs != [] {
      var prefix := cs[..|cs| - 1];
      var c := cs[|cs| - 1];
      assert forall k :: 0 <= k < |prefix| ==> prefix[k] == cs[k];
      DerivedNamesDistinct(t, prefix, ws);
      DerivedSplit(t, cs, ws);
      if c in t.names {
        assert c !in prefix;
        DerivedStepDistinct(t, prefix, c, ws);
      }
    }
  }

  /**
   * Column order: when no input column already carries a derived name and the
   * windows are distinct, the output is the input, columns in place, followed
   * by the derived columns in the order they are assigned: per catalogue
   * variable, its lag, then per window its mean and its deviation.
   */
  lemma RollupsLayout(df: Table, ws: seq<int>)
    requires df.Valid() && df.Unique() && AllWindowsOk(ws) && NoDup(ws)
    requires forall k :: 0 <= k < |df.names| ==> !EndsInDigit(df.names[k])
    ensures var ds := DerivedAssignments(df, BaseWeatherFeatures, ws);
      Rollups(df, ws) == Success(Table(df.dates, df.names + NamesOf(ds), df.cols + ValuesOf(ds)))
  {
    var ds := DerivedAssignments(df, BaseWeatherFeatures, ws);
    DerivedNamesDistinct(df, BaseWeatherFeatures, ws);
    forall k | 0 <= k < |ds| ensures ds[k].0 !in df.names {
      assert EndsInDigit(ds[k].0);
    }
    AssignAllFresh(df, ds);
  }
}

=== FILE: rolling.dfy ===
/**
 * The per-column statistics behind the rollup features: pandas `shift(1)` and
 * `rolling(w, min_periods=m)` followed by `mean()` or `std()`. Missing cells
 * are skipped, not counted as zero; a window with fewer than `m` readings
 * gives a missing result. Values are real numbers.
 */
module Rolling {
  import opened Wrappers
  import opened Tables

  function Max(a: int, b: int): int { if a >= b then a else b }

  function Min(a: int, b: int): int { if a <= b then a else b }

  /** The readings of a window, in order, with the missing cells skipped. */
  function Present(win: Column): (p: seq<real>)
    ensures |p| <= |win|
    ensures (forall k :: 0 <= k < |win| ==> win[k].Some?) ==> |p| == |win|
    ensures forall x :: x in p <==> Some(x) in win
  {
    if win == [] then []
    else (if win[0].Some? then [win[0].value] else []) + Present(win[1..])
  }

  /**
   * A window has as many readings as cells that are not missing, and each
   * value is read as often as the window holds it: the count and the
   * multiset that the min-periods rule, the mean and the variance use.
   */
  lemma {:induction false} PresentCounts(win: Column)
    ensures |Present(win)| == |win| - multiset(win)[None]
    ensures forall x :: multiset(Present(win))[x] == multiset(win)[Some(x)]
  {
    if win != [] {
      PresentCounts(win[1..]);
      assert win == [win[0]] + win[1..];
      var head := if win[0].Some? then [win[0].value] else [];
      assert Present(win) == head + Present(win[1..]);
    }
  }

  /** Readings keep their order: the readings of two windows side by side are those of the first, then the second. */
  lemma {:induction false} PresentAppend(a: Column, b: Column)
    ensures Present(a + b) == Present(a) + Present(b)
  {
    if a != [] {
      PresentAppend(a[1..], b);
      assert (a + b)[0] == a[0];
      assert (a + b)[1..] == a[1..] + b;
      var head := if a[0].Some? then [a[0].value] else [];
      assert Present(a + b) == head + Present(a[1..] + b);
      assert Present(a) == head + Present(a[1..]);
    } else {
      assert a + b == b;
    }
  }

  function Sum(xs: seq<real>): real {
    if xs == [] then 0.0 else xs[0] + Sum(xs[1..])
  }

  /** Arithmetic mean of a non-empty sample. */
  function Mean(xs: seq<real>): real
    requires |xs| > 0
  {
    Sum(xs) / (|xs| as real)
  }

  function SumSquaredDeviations(xs: seq<real>, m: real): real {
    if xs == [] then 0.0 else (xs[0] - m) * (xs[0] - m) + SumSquaredDeviations(xs[1..], m)
  }

  /** Sample variance with one degree of freedom removed (ddof = 1): the square of pandas' `std()`. */
  function SampleVariance(xs: seq<real>): real
    requires |xs| >= 2
  {
    SumSquaredDeviations(xs, Mean(xs)) / ((|xs| - 1) as real)
  }

  /**
   * `max(2, w // 2)`, the fewest readings a window of length `w` needs.
   * Dafny's `/` by a positive divisor rounds down, as Python's `//` does.
   */
  function MinPeriods(w: int): (m: int)
    ensures m >= 2 && m >= w / 2
    ensures m == 2 || m == w / 2
  {
    Max(2, w / 2)
  }

  /** pandas refuses a `min_periods` larger than the window: that happens exactly for windows below 2. */
  lemma MinPeriodsFitWindow(w: int)
    ensures MinPeriods(w) <= w <==> w >= 2
  {
  }

  /** `s.shift(1)`: every value moves one row down and row 0 becomes missing. */
  function Shift1(s: Column): (r: Column)
    ensures |r| == |s|
    ensures forall i :: 0 <= i < |s| ==> r[i] == if i == 0 then None else s[i - 1]
  {
    if s == [] then [] else [None] + s[..|s| - 1]
  }

  /** The cells pandas' `rolling(w)` aggregates at row `i`: rows max(0, i - w + 1) .. i. */
  function TrailingWindow(s: Column, w: int, i: int): (r: Column)
    requires w >= 1 && 0 <= i < |s|
    ensures |r| == Min(i + 1, w) && r[|r| - 1] == s[i]
    ensures forall k :: 0 <= k < |r| ==> r[k] == s[i + 1 - |r| + k]
  {
    s[Max(0, i - w + 1)..i + 1]
  }

  datatype Stat = MeanStat | VarianceStat

  /** One rolling result: missing below `minp` readings, otherwise the statistic of the readings. */
  function Aggregate(win: Column, minp: int, stat: Stat): Option<real>
    requires minp >= 2
  {
    var p := Present(win);
    if |p| < minp then None
    else match stat
      case MeanStat => Some(Mean(p))
      case VarianceStat => Some(SampleVariance(p))
  }

  /** `s.rolling(w, min_periods=minp).mean()` or `.var()`. */
  function RollingColumn(s: Column, w: int, minp: int, stat: Stat): (r: Column)
    requires 2 <= minp <= w
    ensures |r| == |s|
    ensures forall i :: 0 <= i < |s| ==> (r[i].Some? <==> |Present(TrailingWindow(s, w, i))| >= minp)
    ensures forall i :: 0 <= i < |s| && r[i].Some? ==>
      var p := Present(TrailingWindow(s, w, i));
      r[i].value == if stat == MeanStat then Mean(p) else SampleVariance(p)
  {
    seq(|s|, i requires 0 <= i < |s| => Aggregate(TrailingWindow(s, w, i), minp, stat))
  }

  /** The `{c}_rmean_{w}` column: a rolling mean over the shifted column. */
  function RollingMeanPast(s: Column, w: int): (r: Column)
    requires w >= 2
    ensures |r| == |s|
    ensures forall i :: 0 <= i < |s| ==>
      var p := Present(PastWindow(s, w, i));
      r[i] == if |p| >= MinPeriods(w) then Some(Mean(p)) else None
  {
    ShiftedRollingIsPast(s, w);
    RollingColumn(Shift1(s), w, MinPeriods(w), MeanStat)
  }

  /** The `{c}_rstd_{w}` column, as a variance: same window and threshold as the mean. */
  function RollingStdPast(s: Column, w: int): (r: Column)
    requires w >= 2
    ensures |r| == |s|
    ensures forall i :: 0 <= i < |s| ==>
      var p := Present(PastWindow(s, w, i));
      r[i] == if |p| >= MinPeriods(w) then Some(SampleVariance(p)) else None
  {
    ShiftedRollingIsPast(s, w);
    RollingColumn(Shift1(s), w, MinPeriods(w), VarianceStat)
  }

  /** The rows strictly before row `i` that a past-only window of length `w` covers: max(0, i - w) .. i - 1. */
  function PastWindow(s: Column, w: int, i: int): Column
    requires w >= 0 && 0 <= i <= |s|
  {
    s[Max(0, i - w)..i]
  }

  /** `ShiftedWindowIsPast` at every row at once. */
  lemma ShiftedRollingIsPast(s: Column, w: int)
    requires w >= 1
    ensures forall i :: 0 <= i < |s| ==>
      Present(TrailingWindow(Shift1(s), w, i)) == Present(PastWindow(s, w, i))
  {
    forall i | 0 <= i < |s|
      ensures Present(TrailingWindow(Shift1(s), w, i)) == Present(PastWindow(s, w, i))
    {
      ShiftedWindowIsPast(s, w, i);
    }
  }

  /** Shifting first and then taking a trailing window reads exactly the past-only window. */
  lemma ShiftedWindowIsPast(s: Column, w: int, i: int)
    requires w >= 1 && 0 <= i < |s|
    ensures Present(TrailingWindow(Shift1(s), w, i)) == Present(PastWindow(s, w, i))
  {
    var sh := Shift1(s);
    if i - w + 1 >= 1 {
      assert TrailingWindow(sh, w, i) == PastWindow(s, w, i);
    } else {
      var tw := TrailingWindow(sh, w, i);
      assert tw == [None] + PastWindow(s, w, i);
      assert tw[1..] == PastWindow(s, w, i);
    }
  }

  /**
   * Window alignment: the lag, mean and deviation features at row `i` are
   * computed from rows max(0, i - w) .. i - 1 only, and are present exactly when
   * that window holds at least `MinPeriods(w)` readings.
   */
  lemma PastOnly(s: Column, w: int, i: int)
    requires w >= 2 && 0 <= i < |s|
    ensures var p := Present(PastWindow(s, w, i));
      && RollingMeanPast(s, w)[i] == (if |p| >= MinPeriods(w) then Some(Mean(p)) else None)
      && RollingStdPast(s, w)[i] == (if |p| >= MinPeriods(w) then Some(SampleVariance(p)) else None)
  {
    ShiftedWindowIsPast(s, w, i);
  }

  /** No leakage: the features at row `i` do not depend on row `i` or on any later row. */
  lemma NoLeakage(s1: Column, s2: Column, w: int, i: int)
    requires w >= 2 && 0 <= i < |s1| && i < |s2|
    requires s1[..i] == s2[..i]
    ensures Shift1(s1)[i] == Shift1(s2)[i]
    ensures RollingMeanPast(s1, w)[i] == RollingMeanPast(s2, w)[i]
    ensures RollingStdPast(s1, w)[i] == RollingStdPast(s2, w)[i]
  {
    PastOnly(s1, w, i);
    PastOnly(s2, w, i);
    var lo := Max(0, i - w);
    assert PastWindow(s1, w, i) == s1[..i][lo..];
    assert PastWindow(s2, w, i) == s2[..i][lo..];
    if i > 0 {
      assert s1[i - 1] == s1[..i][i - 1];
      assert s2[i - 1] == s2[..i][i - 1];
    }
  }

  /**
   * Minimum periods: a rolling feature is missing until its window holds
   * `MinPeriods(w)` readings, so rows 0 and 1 are always missing and, for
   * `w == 30`, row 15 is the first that can have a value. With no gap in the
   * column, the feature is present exactly from row `MinPeriods(w)` on.
   */
  lemma WarmUp(s: Column, w: int, i: int)
    requires w >= 2 && 0 <= i < |s|
    ensures RollingMeanPast(s, w)[i].Some? ==> i >= MinPeriods(w) && i >= 2
    ensures (forall k :: 0 <= k < |s| ==> s[k].Some?) ==>
              (RollingMeanPast(s, w)[i].Some? <==> Min(i, w) >= MinPeriods(w))
  {
    PastOnly(s, w, i);
    assert |PastWindow(s, w, i)| == Min(i, w);
  }

  lemma {:induction false} SumOfConstant(xs: seq<real>, v: real)
    requires forall k :: 0 <= k < |xs| ==> xs[k] == v
    ensures Sum(xs) == (|xs| as real) * v
  {
    if xs != [] {
      SumOfConstant(xs[1..], v);
      assert Sum(xs) == v + (|xs[1..]| as real) * v;
    }
  }

  lemma {:induction false} SumBounds(xs: seq<real>, lo: real, hi: real)
    requires forall k :: 0 <= k < |xs| ==> lo <= xs[k] <= hi
    ensures (|xs| as real) * lo <= Sum(xs) <= (|xs| as real) * hi
  {
    if xs != [] {
      SumBounds(xs[1..], lo, hi);
      assert (|xs| as real) * lo == lo + (|xs[1..]| as real) * lo;
      assert (|xs| as real) * hi == hi + (|xs[1..]| as real) * hi;
    }
  }

  /** The mean lies between the smallest and the largest reading. */
  lemma MeanBounds(xs: seq<real>, lo: real, hi: real)
    requires |xs| > 0 && forall k :: 0 <= k < |xs| ==> lo <= xs[k] <= hi
    ensures lo <= Mean(xs) <= hi
  {
    SumBounds(xs, lo, hi);
    var n := |xs| as real;
    assert Sum(xs) / n >= (n * lo) / n;
    assert Sum(xs) / n <= (n * hi) / n;
  }

  lemma {:induction false} DeviationsNonNegative(xs: seq<real>, m: real)
    ensures SumSquaredDeviations(xs, m) >= 0.0
  {
    if xs != [] {
      DeviationsNonNegative(xs[1..], m);
      var d := xs[0] - m;
      assert d * d >= 0.0;
    }
  }

  lemma {:induction false} DeviationsOfConstant(xs: seq<real>, v: real)
    requires forall k :: 0 <= k < |xs| ==> xs[k] == v
    ensures SumSquaredDeviations(xs, v) == 0.0
  {
    if xs != [] {
      DeviationsOfConstant(xs[1..], v);
    }
  }

  /** A sample variance is never negative, and it is zero when all readings are equal. */
  lemma VarianceFacts(xs: seq<real>)
    requires |xs| >= 2
    ensures SampleVariance(xs) >= 0.0
    ensures (forall k :: 0 <= k < |xs| ==> xs[k] == xs[0]) ==> SampleVariance(xs) == 0.0 && Mean(xs) == xs[0]
  {
    DeviationsNonNegative(xs, Mean(xs));
    if forall k :: 0 <= k < |xs| ==> xs[k] == xs[0] {
      SumOfConstant(xs, xs[0]);
      assert Mean(xs) == xs[0];
      DeviationsOfConstant(xs, xs[0]);
    }
  }

  /**
   * The deviation feature has the mean's missing pattern; when present it is
   * non-negative, and it is zero (with the mean equal to `v`) when every
   * reading in the window equals `v`.
   */
  lemma StdShape(s: Column, w: int, i: int, v: real)
    requires w >= 2 && 0 <= i < |s|
    ensures RollingStdPast(s, w)[i].Some? <==> RollingMeanPast(s, w)[i].Some?
    ensures RollingStdPast(s, w)[i].Some? ==> RollingStdPast(s, w)[i].value >= 0.0
    ensures (forall k :: Max(0, i - w) <= k < i ==> s[k] == None || s[k] == Some(v)) &&
            RollingStdPast(s, w)[i].Some? ==>
              RollingStdPast(s, w)[i] == Some(0.0) && RollingMeanPast(s, w)[i] == Some(v)
  {
    PastOnly(s, w, i);
    var p := Present(PastWindow(s, w, i));
    if |p| >= MinPeriods(w) {
      VarianceFacts(p);
      if forall k :: Max(0, i - w) <= k < i ==> s[k] == None || s[k] == Some(v) {
        ConstantWindow(s, w, i, v);
        assert p[0] == v;
      }
    }
  }

  /** A window whose every reading is `v` presents only `v`. */
  lemma ConstantWindow(s: Column, w: int, i: int, v: real)
    requires w >= 2 && 0 <= i < |s|
    requires forall k :: Max(0, i - w) <= k < i ==> s[k] == None || s[k] == Some(v)
    ensures forall k :: 0 <= k < |Present(PastWindow(s, w, i))| ==> Present(PastWindow(s, w, i))[k] == v
  {
    var win := PastWindow(s, w, i);
    var p := Present(win);
    forall k | 0 <= k < |p| ensures p[k] == v {
      assert p[k] in p;
      var j :| 0 <= j < |win| && win[j] == Some(p[k]);
      assert s[Max(0, i - w) + j] == win[j];
    }
  }

  /** The series 20, 22, 19, 25, 21 used by the three-row examples below. */
  function ExampleSeries(): Column {
    [Some(20.0), Some(22.0), Some(19.0), Some(25.0), Some(21.0)]
  }

  /** Row 1 has a single reading before it, below the two that a three-row window needs. */
  lemma ExampleRow1()
    ensures RollingMeanPast(ExampleSeries(), 3)[1] == None
    ensures Shift1(ExampleSeries())[1] == Some(20.0)
  {
    var s := ExampleSeries();
    PastOnly(s, 3, 1);
    assert PastWindow(s, 3, 1) == [Some(20.0)];
    assert |Present([Some(20.0)])| == 1;
  }

  /** The readings in row 2's window are those of rows 0 and 1 (the 19 of row 2 itself is not used). */
  lemma ExampleWindow2()
    ensures Present(PastWindow(ExampleSeries(), 3, 2)) == [20.0, 22.0]
  {
    assert PastWindow(ExampleSeries(), 3, 2) == [Some(20.0), Some(22.0)];
    assert Present([Some(22.0)]) == [22.0];
  }

  /** Row 2 averages rows 0 and 1: mean 21. */
  lemma ExampleRow2Mean()
    ensures RollingMeanPast(ExampleSeries(), 3)[2] == Some(21.0)
  {
    PastOnly(ExampleSeries(), 3, 2);
    ExampleWindow2();
    assert Sum([20.0, 22.0]) == 42.0 by {
      assert Sum([22.0]) == 22.0;
    }
  }

  /** Row 2's sample variance: ((20 - 21)^2 + (22 - 21)^2) / (2 - 1) = 2. */
  lemma ExampleRow2Variance()
    ensures RollingStdPast(ExampleSeries(), 3)[2] == Some(2.0)
  {
    PastOnly(ExampleSeries(), 3, 2);
    ExampleWindow2();
    VarianceOfTwo();
  }

  lemma VarianceOfTwo()
    ensures SampleVariance([20.0, 22.0]) == 2.0
  {
    var two := [20.0, 22.0];
    assert Mean(two) == 21.0 by {
      assert Sum([22.0]) == 22.0;
    }
    assert SumSquaredDeviations(two, 21.0) == 2.0 by {
      assert SumSquaredDeviations([22.0], 21.0) == 1.0;
    }
  }

  /** Row 3 averages rows 0 to 2: (20 + 22 + 19) / 3. */
  lemma ExampleRow3()
    ensures RollingMeanPast(ExampleSeries(), 3)[3] == Some(61.0 / 3.0)
  {
    var s := ExampleSeries();
    var w := [Some(20.0), Some(22.0), Some(19.0)];
    var three := [20.0, 22.0, 19.0];
    assert PastWindow(s, 3, 3) == w;
    assert Present(w[2..]) == [19.0];
    assert Present(w[1..]) == [22.0, 19.0];
    assert Present(w) == three;
    assert Sum(three[2..]) == 19.0;
    assert Sum(three[1..]) == 41.0;
    assert Sum(three) == 61.0;
    assert Mean(three) == 61.0 / 3.0;
    PastOnly(s, 3, 3);
  }
}

=== FILE: service.dfy ===
/**
 * The prediction service around the feature engine: it assembles the latest
 * feature row from a fetched history, aligns it to the columns a model
 * expects, and turns the model's raw outputs into answers. Dates are day
 * numbers; the fetched history and the model outputs are parameters.
 */
module Service {
  import opened Wrappers
  import opened Tables
  import opened Rolling
  import opened Features

  /** Why the feature row cannot be built (both answered with status 500). */
  datatype BuildError = MissingColumns(names: seq<string>) | InsufficientHistory

  /** An inclusive range of day numbers. */
  datatype DateRange = DateRange(start: int, end: int) {
    predicate Contains(d: int) { start <= d <= end }
    function Days(): int { end - start + 1 }
  }

  predicate Sorted(ds: seq<int>) {
    forall a, b :: 0 <= a <= b < |ds| ==> ds[a] <= ds[b]
  }

  // ---------------------------------------------------------------------------
  // Date arithmetic

  /** The history requested for a reference date: sixty days back, up to the date itself. */
  function HistoryWindow(ref: int): (r: DateRange)
    ensures r.Days() == 61 && r.end == ref
  {
    DateRange(ref - 60, ref)
  }

  /** The day the rain forecast is about. */
  function RainTargetDate(ref: int): (d: int)
    ensures d > HistoryWindow(ref).end
    ensures d - HistoryWindow(ref).end == 7
  {
    ref + 7
  }

  /** The three days the precipitation forecast covers. */
  function PrecipitationWindow(ref: int): (r: DateRange)
    ensures r.Days() == 3 && r.start == HistoryWindow(ref).end + 1
  {
    DateRange(ref + 1, ref + 3)
  }

  /**
   * Both forecasts are about days strictly after every day of the history
   * they are built from, and the rain day lies a week past the reference.
   */
  lemma ForecastAfterHistory(ref: int, d: int)
    requires HistoryWindow(ref).Contains(d)
    ensures d < PrecipitationWindow(ref).start && d < RainTargetDate(ref)
    ensures !PrecipitationWindow(ref).Contains(d)
    ensures 7 <= RainTargetDate(ref) - d <= 67
  {
  }

  // ---------------------------------------------------------------------------
  // The columns the fetched history must hold

  /** The positions, below `n` and in ascending order, of the names of `cs` that `names` lacks. */
  function MissingPositions(cs: seq<string>, names: seq<string>, n: nat): (p: seq<nat>)
    requires n <= |cs|
    ensures forall k :: 0 <= k < |p| ==> p[k] < n && cs[p[k]] !in names
    ensures forall i :: 0 <= i < n && cs[i] !in names ==> i in p
    ensures forall a, b :: 0 <= a < b < |p| ==> p[a] < p[b]
  {
    if n == 0 then []
    else MissingPositions(cs, names, n - 1) + (if cs[n - 1] in names then [] else [n - 1])
  }

  /** The names of `cs` that `names` lacks, in the order of `cs`. */
  function MissingFrom(cs: seq<string>, names: seq<string>): (m: seq<string>)
    ensures forall x :: x in m <==> x in cs && x !in names
  {
    var p := MissingPositions(cs, names, |cs|);
    var m := seq(|p|, k requires 0 <= k < |p| => cs[p[k]]);
    assert forall x :: x in cs && x !in names ==> x in m by {
      forall x | x in cs && x !in names ensures x in m {
        var i :| 0 <= i < |cs| && cs[i] == x;
        var k :| 0 <= k < |p| && p[k] == i;
        assert m[k] == x;
      }
    }
    m
  }

  /** In a list without duplicates, the first position of the name at `i` is `i`. */
  lemma {:induction false} IndexOfDistinct(cs: seq<string>, i: int)
    requires NoDup(cs) && 0 <= i < |cs|
    ensures IndexOf(cs, cs[i]) == i
  {
    var k := IndexOf(cs, cs[i]);
    assert cs[k] == cs[i] && k <= i;
  }

  /** Listing the missing names keeps them distinct and in the order of `cs`. */
  lemma MissingFromOrder(cs: seq<string>, names: seq<string>)
    requires NoDup(cs)
    ensures var m := MissingFrom(cs, names);
      NoDup(m) && forall a, b :: 0 <= a < b < |m| ==> IndexOf(cs, m[a]) < IndexOf(cs, m[b])
  {
    var p := MissingPositions(cs, names, |cs|);
    var m := MissingFrom(cs, names);
    forall a, b | 0 <= a < b < |m| ensures m[a] != m[b] && IndexOf(cs, m[a]) < IndexOf(cs, m[b]) {
      assert m[a] == cs[p[a]] && m[b] == cs[p[b]] && p[a] < p[b];
      IndexOfDistinct(cs, p[a]);
      IndexOfDistinct(cs, p[b]);
    }
  }

  /** The catalogue names missing from the fetched history (main.py, the `missing` list). */
  function MissingBaseColumns(df: Table): (m: seq<string>)
    ensures forall x :: x in m <==> x in BaseWeatherFeatures && x !in df.names
    ensures m == [] <==> forall k :: 0 <= k < |BaseWeatherFeatures| ==> BaseWeatherFeatures[k] in df.names
  {
    var m := MissingFrom(BaseWeatherColumns(), df.names);
    assert m != [] ==> m[0] in m;
    m
  }

  /** The missing names are reported once each, in catalogue order. */
  lemma MissingBaseColumnsOrder(df: Table)
    ensures var m := MissingBaseColumns(df);
      NoDup(m) && forall a, b :: 0 <= a < b < |m| ==>
        IndexOf(BaseWeatherFeatures, m[a]) < IndexOf(BaseWeatherFeatures, m[b])
  {
    var base := BaseWeatherColumns();
    MissingFromOrder(base, df.names);
  }

  // ---------------------------------------------------------------------------
  // The latest feature row

  /** The default windows are all accepted. */
  lemma DefaultWindowsOk()
    ensures AllWindowsOk(DefaultWindows) && NoDup(DefaultWindows)
    ensures forall k :: 0 <= k < |DefaultWindows| ==> DefaultWindows[k] >= 2
  {
    assert DefaultWindows[0] == 3 && DefaultWindows[1] == 7 && DefaultWindows[2] == 14 && DefaultWindows[3] == 30;
  }

  /** The history with its rollups over the windows 3, 7, 14 and 30 days. */
  function FeatureTable(df: Table): (r: Table)
    requires df.Valid() && df.Unique()
    ensures r.Valid() && r.Unique() && r.dates == df.dates
    ensures Rollups(df, DefaultWindows) == Success(r)
  {
    DefaultWindowsOk();
    Rollups(df, DefaultWindows).value
  }

  /** The index of the row the service answers from: the last complete row of the feature table. */
  function LatestIndex(df: Table): (r: Option<nat>)
    requires df.Valid() && df.Unique()
    ensures r.Some? ==> r.value < df.NumRows()
  {
    var full := FeatureTable(df);
    LastComplete(full, full.NumRows())
  }

  /**
   * Build the one-row input the models are given. Missing catalogue columns
   * are reported before any rollup is computed; a history without a
   * complete row is reported as too short; otherwise the answer is the last
   * complete row of the rolled-up history.
   */
  method BuildLatestFeatureRow(df: Table) returns (r: Result<Table, BuildError>)
    requires df.Valid() && df.Unique()
    ensures MissingBaseColumns(df) != [] ==> r == Failure(MissingColumns(MissingBaseColumns(df)))
    ensures MissingBaseColumns(df) == [] && LatestIndex(df).None? ==> r == Failure(InsufficientHistory)
    ensures MissingBaseColumns(df) == [] && LatestIndex(df).Some? ==>
      r == Success(TakeRows(FeatureTable(df), [LatestIndex(df).value]))
  {
    var missing := MissingFrom(BaseWeatherColumns(), df.names);
    if missing != [] {
      return Failure(MissingColumns(missing));
    }
    var feat := AddWeatherRollups(df, DefaultWindows);
    assert feat == Success(FeatureTable(df));
    var full := feat.value;
    var complete := DropNa(full);
    if complete.NumRows() == 0 {
      LatestComplete(full);
      return Failure(InsufficientHistory);
    }
    LatestComplete(full);
    r := Success(Tail1(complete));
  }

  /** The row is a single row with a reading in every column, raw or derived. */
  lemma LatestRowComplete(df: Table)
    requires df.Valid() && df.Unique() && LatestIndex(df).Some?
    ensures var row := TakeRows(FeatureTable(df), [LatestIndex(df).value]);
      row.NumRows() == 1 && row.names == FeatureTable(df).names && RowComplete(row, 0)
  {
    var full := FeatureTable(df);
    TakeCompleteRows(full, [LatestIndex(df).value]);
  }

  /**
   * Every derived value in the row is the feature computed from the history
   * at that row, and it has a reading.
   */
  lemma LatestRowFeature(df: Table, c: string, f: Feature)
    requires df.Valid() && df.Unique() && LatestIndex(df).Some?
    requires c in BaseWeatherFeatures && c in df.names && Requested(f, DefaultWindows)
    ensures (f.Lag? || f.window >= 2) && c + Suffix(f) in FeatureTable(df).names
    ensures var i := LatestIndex(df).value;
      var cell := Col(FeatureTable(df), c + Suffix(f))[i];
      cell == FeatureValue(Col(df, c), f)[i] && cell.Some?
  {
    var full := FeatureTable(df);
    DefaultWindowsOk();
    RollupsFeature(df, DefaultWindows, c, f);
    CompleteCell(full, LatestIndex(df).value, c + Suffix(f));
  }

  /**
   * A complete row needs history: its 30-day mean needs 15 earlier readings,
   * so the row the service answers from is at least the sixteenth.
   */
  lemma LatestRowHistory(df: Table)
    requires df.Valid() && df.Unique() && MissingBaseColumns(df) == [] && LatestIndex(df).Some?
    ensures LatestIndex(df).value >= 15
  {
    var c := BaseWeatherFeatures[2];
    assert c in df.names;
    DefaultWindowsOk();
    assert 30 in DefaultWindows;
    LatestRowFeature(df, c, RollingMean(30));
    WarmUp(Col(df, c), 30, LatestIndex(df).value);
  }

  /**
   * In a date-sorted history the row answered from is the newest complete
   * one, and, when the history lies in the window fetched for `ref`, both
   * forecasts are about days after it.
   */
  lemma LatestRowNewest(df: Table, j: int, ref: int)
    requires df.Valid() && df.Unique() && Sorted(df.dates) && LatestIndex(df).Some?
    requires 0 <= j < df.NumRows() && RowComplete(FeatureTable(df), j)
    requires forall k :: 0 <= k < |df.dates| ==> HistoryWindow(ref).Contains(df.dates[k])
    ensures var i := LatestIndex(df).value;
      df.dates[j] <= df.dates[i] && df.dates[i] < PrecipitationWindow(ref).start && df.dates[i] < RainTargetDate(ref)
  {
  }

  // ---------------------------------------------------------------------------
  // Alignment to the model's expected columns

  /** `t` is `x` with some columns of zeros added: `x`'s columns read as before, every other one as zeros. */
  predicate ZeroFilled(t: Table, x: Table)
    requires t.Valid() && x.Valid()
  {
    && (forall n :: n in x.names ==> n in t.names && Col(t, n) == Col(x, n))
    && (forall n :: n in t.names && n !in x.names ==> Col(t, n) == Zeros(x.NumRows()))
  }

  /** Adding one more column of zeros keeps a zero-filled table zero-filled. */
  lemma ZeroFillStep(t: Table, x: Table, c: string)
    requires t.Valid() && t.Unique() && x.Valid() && t.NumRows() == x.NumRows()
    requires ZeroFilled(t, x) && c !in t.names
    ensures ZeroFilled(SetColumn(t, c, Zeros(x.NumRows())), x)
  {
    var z := Zeros(x.NumRows());
    var u := SetColumn(t, c, z);
    forall n | n in u.names
      ensures Col(u, n) == if n == c then z else Col(t, n)
    {
      SetColumnCol(t, c, z, n);
    }
  }

  /**
   * Give the row the columns a model was fitted on: add each expected
   * column the row lacks as zeros, then keep exactly the expected columns in
   * the expected order. A model that does not declare its columns gets the
   * row unchanged.
   */
  method AlignFeatures(x: Table, expected: Option<seq<string>>) returns (r: Table)
    requires x.Valid() && x.Unique()
    ensures r.Valid() && r.dates == x.dates
    ensures expected.None? ==> r == x
    ensures expected.Some? ==> r.names == expected.value
    ensures expected.Some? ==> forall k :: 0 <= k < |expected.value| ==>
      r.cols[k] == if expected.value[k] in x.names then Col(x, expected.value[k]) else Zeros(x.NumRows())
  {
    if expected.None? {
      return x;
    }
    var cols := expected.value;
    var out := new Frame.Copy(x);
    for k := 0 to |cols|
      invariant out.Valid() && out.dates == x.dates
      invariant forall j :: 0 <= j < k ==> cols[j] in out.names
      invariant ZeroFilled(out.Value(), x)
    {
      var c := cols[k];
      if c !in out.names {
        ZeroFillStep(out.Value(), x, c);
        out.Assign(c, Zeros(|out.dates|));
      }
    }
    r := Select(out.Value(), cols);
  }

  // ---------------------------------------------------------------------------
  // Decision rules on the model outputs

  /**
   * The rain answer: a probability in [0, 1] is compared against one half;
   * anything else falls back to the model's own class prediction.
   */
  function WillRain(proba: real, fallback: bool): (r: bool)
    ensures 0.0 <= proba <= 1.0 ==> (r <==> proba >= 0.5)
    ensures !(0.0 <= proba <= 1.0) ==> r == fallback
  {
    if 0.0 <= proba <= 1.0 then proba >= 0.5 else fallback
  }

  /** Within [0, 1] a higher probability never turns a rain answer into a dry one. */
  lemma WillRainMonotone(p: real, q: real, fp: bool, fq: bool)
    requires 0.0 <= p <= q <= 1.0
    ensures WillRain(p, fp) ==> WillRain(q, fq)
  {
  }

  /** The precipitation answer: a negative prediction becomes zero. */
  function ClampPrecipitation(mm: real): (r: real)
    ensures r >= 0.0 && r >= mm
    ensures mm >= 0.0 ==> r == mm
    ensures mm < 0.0 ==> r == 0.0
  {
    if mm < 0.0 then 0.0 else mm
  }

  /** Clamping twice is clamping once, and it keeps the order of predictions. */
  lemma ClampFacts(a: real, b: real)
    ensures ClampPrecipitation(ClampPrecipitation(a)) == ClampPrecipitation(a)
    ensures a <= b ==> ClampPrecipitation(a) <= ClampPrecipitation(b)
  {
  }
}

=== FILE: tables.dfy ===
/**
 * The part of a pandas DataFrame that the weather pipeline relies on: a date
 * index, named numeric columns in order, column assignment (`df[name] = v`),
 * column selection (`df[names]`), `dropna` and `tail`.
 */
module Tables {
  import opened Wrappers

  /** One numeric column; `None` stands for NaN (a missing reading). */
  type Column = seq<Option<real>>

  /** A pending `df[name] = values`. */
  type Assignment = (string, Column)

  predicate NoDup<T(==)>(s: seq<T>) {
    forall i, j :: 0 <= i < j < |s| ==> s[i] != s[j]
  }

  /**
   * A daily table: one row per entry of `dates` (day numbers), and the named
   * columns in their left-to-right order.
   */
  datatype Table = Table(dates: seq<int>, names: seq<string>, cols: seq<Column>) {
    function NumRows(): nat { |dates| }

    /** Every column has one cell per row. */
    predicate Valid() {
      |names| == |cols| && forall k :: 0 <= k < |cols| ==> |cols[k]| == |dates|
    }

    /** Column labels are distinct, as in a frame built from a JSON object. */
    predicate Unique() { NoDup(names) }
  }

  /** Position of the first column called `name`. */
  function IndexOf(names: seq<string>, name: string): (k: nat)
    requires name in names
    ensures k < |names| && names[k] == name
    ensures forall j :: 0 <= j < k ==> names[j] != name
  {
    if names[0] == name then 0 else 1 + IndexOf(names[1..], name)
  }

  /** `df[name]`. */
  function Col(t: Table, name: string): (c: Column)
    requires t.Valid() && name in t.names
    ensures |c| == t.NumRows()
  {
    t.cols[IndexOf(t.names, name)]
  }

  lemma ColAt(t: Table, k: int)
    requires t.Valid() && t.Unique() && 0 <= k < |t.names|
    ensures Col(t, t.names[k]) == t.cols[k]
  {
  }

  /**
   * `df[name] = values`: an existing column of that name is replaced where it
   * stands; otherwise the column is appended after all others.
   */
  function SetColumn(t: Table, name: string, values: Column): (r: Table)
    requires t.Valid() && |values| == t.NumRows()
    ensures r.Valid() && r.dates == t.dates
    ensures name in t.names ==> r.names == t.names
    ensures name !in t.names ==> r.names == t.names + [name]
    ensures t.Unique() ==> r.Unique()
  {
    if name in t.names then
      t.(cols := t.cols[IndexOf(t.names, name) := values])
    else
      Table(t.dates, t.names + [name], t.cols + [values])
  }

  /** After `df[name] = values`, reading `name` gives `values` and every other column reads as before. */
  lemma SetColumnCol(t: Table, name: string, values: Column, other: string)
    requires t.Valid() && t.Unique() && |values| == t.NumRows()
    requires other == name || other in t.names
    ensures other in SetColumn(t, name, values).names
    ensures Col(SetColumn(t, name, values), other) == if other == name then values else Col(t, other)
  {
    var r := SetColumn(t, name, values);
    var k := IndexOf(r.names, other);
    if other in t.names {
      var j := IndexOf(t.names, other);
      assert r.names[j] == other;
      if name in t.names {
        var m := IndexOf(t.names, name);
        if other != name {
          assert m != j;
        }
      }
    } else {
      assert other == name && name !in t.names;
      assert r.names[|t.names|] == name;
    }
  }

  /** Every assignment carries one cell per row of `t`. */
  predicate Fits(t: Table, ds: seq<Assignment>) {
    forall k :: 0 <= k < |ds| ==> |ds[k].1| == t.NumRows()
  }

  function NamesOf(ds: seq<Assignment>): (ns: seq<string>)
    ensures |ns| == |ds| && forall k :: 0 <= k < |ds| ==> ns[k] == ds[k].0
  {
    seq(|ds|, k requires 0 <= k < |ds| => ds[k].0)
  }

  function ValuesOf(ds: seq<Assignment>): (vs: seq<Column>)
    ensures |vs| == |ds| && forall k :: 0 <= k < |ds| ==> vs[k] == ds[k].1
  {
    seq(|ds|, k requires 0 <= k < |ds| => ds[k].1)
  }

  lemma NamesOfAppend(a: seq<Assignment>, b: seq<Assignment>)
    ensures NamesOf(a + b) == NamesOf(a) + NamesOf(b)
  {
    assert |NamesOf(a + b)| == |NamesOf(a) + NamesOf(b)|;
    forall k | 0 <= k < |a + b| ensures NamesOf(a + b)[k] == (NamesOf(a) + NamesOf(b))[k] {
      if k < |a| {
        assert (a + b)[k] == a[k];
      } else {
        assert (a + b)[k] == b[k - |a|];
      }
    }
  }

  /** The assignments `ds` carried out one after the other, first to last. */
  function AssignAll(t: Table, ds: seq<Assignment>): (r: Table)
    requires t.Valid() && Fits(t, ds)
    ensures r.Valid() && r.dates == t.dates
    ensures t.Unique() ==> r.Unique()
    decreases |ds|
  {
    if ds == [] then t
    else
      var prev := AssignAll(t, ds[..|ds| - 1]);
      SetColumn(prev, ds[|ds| - 1].0, ds[|ds| - 1].1)
  }

  /** After the assignments, the frame has exactly its old columns and the assigned ones. */
  lemma {:induction false} AssignAllNames(t: Table, ds: seq<Assignment>, n: string)
    requires t.Valid() && Fits(t, ds)
    ensures n in AssignAll(t, ds).names <==> n in t.names || n in NamesOf(ds)
    decreases |ds|
  {
    if ds != [] {
      var ds' := ds[..|ds| - 1];
      assert NamesOf(ds) == NamesOf(ds') + [ds[|ds| - 1].0];
      AssignAllNames(t, ds', n);
    }
  }

  /** Two more assignments on top of `xs`. */
  lemma AssignAllTwoMore(t: Table, xs: seq<Assignment>, a: Assignment, b: Assignment)
    requires t.Valid() && Fits(t, xs) && |a.1| == t.NumRows() && |b.1| == t.NumRows()
    ensures Fits(t, xs + [a, b])
    ensures AssignAll(t, xs + [a, b]) == SetColumn(SetColumn(AssignAll(t, xs), a.0, a.1), b.0, b.1)
  {
    var ys := xs + [a, b];
    assert ys[..|ys| - 1] == xs + [a];
    assert (xs + [a])[..|xs|] == xs;
  }

  lemma {:induction false} AssignAllAppend(t: Table, a: seq<Assignment>, b: seq<Assignment>)
    requires t.Valid() && Fits(t, a) && Fits(t, b)
    ensures Fits(t, a + b) && Fits(AssignAll(t, a), b)
    ensures AssignAll(t, a + b) == AssignAll(AssignAll(t, a), b)
    decreases |b|
  {
    FitsAppend(t, a, b);
    if b == [] {
      assert a + b == a;
    } else {
      var b' := b[..|b| - 1];
      assert Fits(t, b');
      AssignAllAppend(t, a, b');
      assert (a + b)[..|a + b| - 1] == a + b';
    }
  }

  lemma FitsAppend(t: Table, a: seq<Assignment>, b: seq<Assignment>)
    requires Fits(t, a) && Fits(t, b)
    ensures Fits(t, a + b)
  {
    forall k | 0 <= k < |a + b| ensures |(a + b)[k].1| == t.NumRows() {
      if k >= |a| { assert (a + b)[k] == b[k - |a|]; }
    }
  }

  /** A column that no assignment names keeps its values. */
  lemma {:induction false} AssignAllKeeps(t: Table, ds: seq<Assignment>, n: string)
    requires t.Valid() && t.Unique() && Fits(t, ds)
    requires n in t.names && n !in NamesOf(ds)
    ensures n in AssignAll(t, ds).names && Col(AssignAll(t, ds), n) == Col(t, n)
    decreases |ds|
  {
    if ds != [] {
      var ds' := ds[..|ds| - 1];
      assert NamesOf(ds) == NamesOf(ds') + [ds[|ds| - 1].0];
      AssignAllKeeps(t, ds', n);
      SetColumnCol(AssignAll(t, ds'), ds[|ds| - 1].0, ds[|ds| - 1].1, n);
    }
  }

  /** Every assignment of the name `n` among `ds` assigns `v`. */
  predicate AssignsOnly(ds: seq<Assignment>, n: string, v: Column) {
    forall k :: 0 <= k < |ds| && ds[k].0 == n ==> ds[k].1 == v
  }

  lemma AssignsOnlyAppend(a: seq<Assignment>, b: seq<Assignment>, n: string, v: Column)
    requires AssignsOnly(a, n, v) && AssignsOnly(b, n, v)
    ensures AssignsOnly(a + b, n, v)
  {
    forall k | 0 <= k < |a + b| && (a + b)[k].0 == n ensures (a + b)[k].1 == v {
      if k >= |a| {
        assert (a + b)[k] == b[k - |a|];
      }
    }
  }

  /**
   * A column that the assignments name reads, afterwards, as the value they
   * assign it (when every assignment of that name assigns the same value,
   * whichever of them came last).
   */
  lemma {:induction false} AssignAllLookup(t: Table, ds: seq<Assignment>, n: string, v: Column)
    requires t.Valid() && t.Unique() && Fits(t, ds)
    requires n in NamesOf(ds) && AssignsOnly(ds, n, v)
    ensures n in AssignAll(t, ds).names && Col(AssignAll(t, ds), n) == v
    decreases |ds|
  {
    var ds' := ds[..|ds| - 1];
    var last := ds[|ds| - 1];
    assert NamesOf(ds) == NamesOf(ds') + [last.0];
    if last.0 != n {
      assert n in NamesOf(ds');
      AssignAllLookup(t, ds', n, v);
    }
    SetColumnCol(AssignAll(t, ds'), last.0, last.1, n);
  }

  lemma NoDupAppend<T>(a: seq<T>, b: seq<T>)
    requires NoDup(a) && NoDup(b) && forall x, y :: 0 <= x < |a| && 0 <= y < |b| ==> a[x] != b[y]
    ensures NoDup(a + b)
  {
    forall i, j | 0 <= i < j < |a + b| ensures (a + b)[i] != (a + b)[j] {
      if j < |a| {
        assert (a + b)[i] == a[i] && (a + b)[j] == a[j];
      } else if i < |a| {
        assert (a + b)[i] == a[i] && (a + b)[j] == b[j - |a|];
      } else {
        assert (a + b)[i] == b[i - |a|] && (a + b)[j] == b[j - |a|];
      }
    }
  }

  /**
   * When the assigned names are new and distinct, the assignments only append:
   * the original columns stay where they were, with their values, and the new
   * columns follow in assignment order.
   */
  lemma {:induction false} AssignAllFresh(t: Table, ds: seq<Assignment>)
    requires t.Valid() && Fits(t, ds)
    requires NoDup(NamesOf(ds)) && forall k :: 0 <= k < |ds| ==> ds[k].0 !in t.names
    ensures AssignAll(t, ds) == Table(t.dates, t.names + NamesOf(ds), t.cols + ValuesOf(ds))
    decreases |ds|
  {
    if ds == [] {
      assert t.names + NamesOf(ds) == t.names;
      assert t.cols + ValuesOf(ds) == t.cols;
    } else {
      var ds' := ds[..|ds| - 1];
      var last := ds[|ds| - 1];
      assert NamesOf(ds) == NamesOf(ds') + [last.0];
      assert ValuesOf(ds) == ValuesOf(ds') + [last.1];
      AssignAllFresh(t, ds');
      assert last.0 !in NamesOf(ds') by {
        forall k | 0 <= k < |ds'| ensures NamesOf(ds')[k] != last.0 {
          assert NamesOf(ds)[k] != NamesOf(ds)[|ds| - 1];
        }
      }
    }
  }

  /** A row in which every column has a reading. */
  predicate RowComplete(t: Table, i: int)
    requires t.Valid() && 0 <= i < t.NumRows()
  {
    forall k :: 0 <= k < |t.cols| ==> t.cols[k][i].Some?
  }

  /** The complete rows among the first `n`, in ascending order. */
  function CompleteRows(t: Table, n: nat): (idx: seq<nat>)
    requires t.Valid() && n <= t.NumRows()
    ensures forall m :: 0 <= m < |idx| ==> idx[m] < n && RowComplete(t, idx[m])
    ensures forall i :: 0 <= i < n && RowComplete(t, i) ==> i in idx
    ensures forall a, b :: 0 <= a < b < |idx| ==> idx[a] < idx[b]
  {
    if n == 0 then []
    else CompleteRows(t, n - 1) + (if RowComplete(t, n - 1) then [n - 1] else [])
  }

  /** The rows `idx` of `t`, in that order, renumbered from 0. */
  function TakeRows(t: Table, idx: seq<nat>): (r: Table)
    requires t.Valid() && forall m :: 0 <= m < |idx| ==> idx[m] < |t.dates|
    ensures r.Valid() && r.names == t.names && r.NumRows() == |idx| && |r.cols| == |t.cols|
    ensures forall m :: 0 <= m < |idx| ==> r.dates[m] == t.dates[idx[m]]
    ensures forall k, m :: 0 <= k < |t.cols| && 0 <= m < |idx| ==> r.cols[k][m] == t.cols[k][idx[m]]
  {
    Table(seq(|idx|, m requires 0 <= m < |idx| => t.dates[idx[m]]),
          t.names,
          seq(|t.cols|, k requires 0 <= k < |t.cols| =>
            seq(|idx|, m requires 0 <= m < |idx| => t.cols[k][idx[m]])))
  }

  /** `df.dropna().reset_index(drop=True)`. */
  function DropNa(t: Table): (r: Table)
    requires t.Valid()
    ensures r.Valid() && r.names == t.names && |r.cols| == |t.cols|
    ensures forall i :: 0 <= i < r.NumRows() ==> RowComplete(r, i)
    ensures r.NumRows() == 0 <==> forall i :: 0 <= i < t.NumRows() ==> !RowComplete(t, i)
    ensures r == TakeRows(t, CompleteRows(t, t.NumRows()))
  {
    var idx := CompleteRows(t, t.NumRows());
    TakeCompleteRows(t, idx);
    assert |idx| > 0 ==> RowComplete(t, idx[0]);
    TakeRows(t, idx)
  }

  /** Complete rows stay complete when taken out of the table. */
  lemma TakeCompleteRows(t: Table, idx: seq<nat>)
    requires t.Valid() && forall m :: 0 <= m < |idx| ==> idx[m] < |t.dates| && RowComplete(t, idx[m])
    ensures forall i :: 0 <= i < |idx| ==> RowComplete(TakeRows(t, idx), i)
  {
    var r := TakeRows(t, idx);
    forall i | 0 <= i < |idx| ensures RowComplete(r, i) {
      assert RowComplete(t, idx[i]);
    }
  }

  /** The index of the last complete row among the first `n`, if there is one. */
  function LastComplete(t: Table, n: nat): (r: Option<nat>)
    requires t.Valid() && n <= t.NumRows()
    ensures r.Some? ==> r.value < n && RowComplete(t, r.value)
    ensures r.Some? ==> forall i :: r.value < i < n ==> !RowComplete(t, i)
    ensures r.None? <==> forall i :: 0 <= i < n ==> !RowComplete(t, i)
  {
    if n == 0 then None
    else if RowComplete(t, n - 1) then Some(n - 1)
    else LastComplete(t, n - 1)
  }

  /** The last of the complete rows is the last complete row. */
  lemma {:induction false} CompleteRowsLast(t: Table, n: nat)
    requires t.Valid() && n <= t.NumRows()
    ensures var idx := CompleteRows(t, n);
      |idx| > 0 <==> LastComplete(t, n).Some?
    ensures var idx := CompleteRows(t, n);
      |idx| > 0 ==> idx[|idx| - 1] == LastComplete(t, n).value
  {
    if n == 0 {
      assert CompleteRows(t, n) == [];
    } else if RowComplete(t, n - 1) {
      var idx := CompleteRows(t, n);
      assert idx == CompleteRows(t, n - 1) + [n - 1];
      assert idx[|idx| - 1] == n - 1;
    } else {
      CompleteRowsLast(t, n - 1);
      assert CompleteRows(t, n) == CompleteRows(t, n - 1);
      assert LastComplete(t, n) == LastComplete(t, n - 1);
    }
  }

  /** In a cell of a complete row every column has a reading. */
  lemma CompleteCell(t: Table, i: int, name: string)
    requires t.Valid() && 0 <= i < t.NumRows() && RowComplete(t, i) && name in t.names
    ensures Col(t, name)[i].Some?
  {
    assert t.cols[IndexOf(t.names, name)][i].Some?;
  }

  /**
   * `df.dropna().tail(1)` is the last complete row of `df`, and is empty
   * exactly when no row is complete.
   */
  lemma LatestComplete(t: Table)
    requires t.Valid()
    ensures LastComplete(t, t.NumRows()).None? <==> Tail1(DropNa(t)).NumRows() == 0
    ensures LastComplete(t, t.NumRows()).Some? ==>
      Tail1(DropNa(t)) == TakeRows(t, [LastComplete(t, t.NumRows()).value])
  {
    var idx := CompleteRows(t, t.NumRows());
    CompleteRowsLast(t, t.NumRows());
    if |idx| > 0 {
      var d := TakeRows(t, idx);
      var i := idx[|idx| - 1];
      var a := TakeRows(d, [|idx| - 1]);
      var b := TakeRows(t, [i]);
      assert a.dates == b.dates;
      forall k | 0 <= k < |t.cols| ensures a.cols[k] == b.cols[k] {
        assert a.cols[k][0] == d.cols[k][|idx| - 1] == t.cols[k][i] == b.cols[k][0];
      }
    }
  }

  /** `df.tail(1)`: the last row, or the empty table when there is none. */
  function Tail1(t: Table): (r: Table)
    requires t.Valid()
    ensures r.Valid() && r.names == t.names
    ensures r.NumRows() == if t.NumRows() == 0 then 0 else 1
    ensures t.NumRows() > 0 ==> |r.cols| == |t.cols| && r.dates == [t.dates[t.NumRows() - 1]]
    ensures t.NumRows() > 0 ==> forall k :: 0 <= k < |t.cols| ==> r.cols[k] == [t.cols[k][t.NumRows() - 1]]
  {
    if t.NumRows() == 0 then t else TakeRows(t, [t.NumRows() - 1])
  }

  /** A column of `n` zeros, the broadcast of the scalar `0.0`. */
  function Zeros(n: nat): (c: Column)
    ensures |c| == n && forall i :: 0 <= i < n ==> c[i] == Some(0.0)
  {
    seq(n, i => Some(0.0))
  }

  /** `df[wanted]`: the named columns, in the order asked for. */
  function Select(t: Table, wanted: seq<string>): (r: Table)
    requires t.Valid() && forall k :: 0 <= k < |wanted| ==> wanted[k] in t.names
    ensures r.Valid() && r.dates == t.dates && r.names == wanted
    ensures forall k :: 0 <= k < |wanted| ==> r.cols[k] == Col(t, wanted[k])
  {
    Table(t.dates, wanted, seq(|wanted|, k requires 0 <= k < |wanted| => Col(t, wanted[k])))
  }

  /** A DataFrame object that is updated in place by column assignment. */
  class Frame {
    var dates: seq<int>
    var names: seq<string>
    var cols: seq<Column>

    function Value(): Table
      reads this
    {
      Table(dates, names, cols)
    }

    predicate Valid()
      reads this
    {
      Value().Valid() && Value().Unique()
    }

    /** `df.copy()`. */
    constructor Copy(t: Table)
      requires t.Valid() && t.Unique()
      ensures Valid() && Value() == t
    {
      dates, names, cols := t.dates, t.names, t.cols;
    }

    /** `df[name]`. */
    function Get(name: string): Column
      reads this
      requires Valid() && name in names
    {
      Col(Value(), name)
    }

    /** `df[name] = values`, in place. */
    method Assign(name: string, values: Column)
      requires Valid() && |values| == |dates|
      modifies this
      ensures Valid() && Value() == SetColumn(old(Value()), name, values)
    {
      if name in names {
        var k := IndexOf(names, name);
        cols := cols[k := values];
      } else {
        names := names + [name];
        cols := cols + [values];
      }
    }
  }
}

=== FILE: wrappers.dfy ===
/** Option and Result, the two failure-carrying wrappers the model uses. */
module Wrappers {

  /** A value that may be absent; in a table cell `None` stands for NaN. */
  datatype Option<+T> = None | Some(value: T)

  /** The outcome of an operation that can raise. */
  datatype Result<+T, +E> = Success(value: T) | Failure(error: E)
}
